=== FILE: README.md ===
# Builder vertex editor: a Dafny model

This project models the vertex-graph editor `Builder` of the Cordova Mapbox
plugin. A user reshapes a line or polygon by tapping, long-pressing and
dragging markers on a map. The editor keeps four things in step:

- the ordered collection of `Vertex` objects (`vertices`);
- the parallel collection of marker handles (`markers`);
- the owner's position list (`BuilderInterface.getLatLngs()`);
- the link graph between vertices: `prev`/`next` between real vertices,
  and `middleLeft`/`middleRight` to the ghost midpoints that sit on every
  edge.

The editor also tracks the selection index (`selected`, -1 for none), the
last added vertex, the markers shown on the hit-testable overlay, and the two
fields of the drag listener.

The model is one immutable state, `Graph.Editor`:

- vertex objects live in an arena and are addressed by stable ids, because
  Java object identity survives removal from the lists;
- each vertex's marker handle is recorded alongside it;
- every operation is a total function of that state.

`Graph.Valid` is the invariant every operation keeps. It says:

- the two lists are index-aligned and free of duplicates;
- the overlay shows only listed markers;
- `selected` is -1 or an index of both lists;
- every link names an existing vertex object.

Each operation that changes the state proves that it keeps the invariant
and states how `Graph.RealCount` changes. `RealCount` is the number of
listed real vertices. Most operations do this in a companion `...Valid`
lemma. The loops of `initMarkers`, the gesture handlers and `onDrag` state
it in their own contracts. Steps used only inside one operation, such as
`Selection.Raise`, are covered by that operation's lemma.

Modules follow the source:

- `Geometry`: coordinates, the midpoint, and the list operations on the owner's list.
- `Graph`: the state, `createMarker`'s list bookkeeping, `updatePrevNext` and `createMiddleMarker`.
- `Selection`: `select`, `deselect` and ghost promotion.
- `Editing`: `addPoint` and both `removePoint`s.
- `Rings`: `initMarkers`.
- `Dragging`: the drag listener.
- `Gestures`: the tap, long-press and down handlers of the overlay listener.

## Model

| member | source | states |
|---|---|---|
| Geometry.Mid | src/android/com/affinitybridge/cordova/mapbox/Builder.java:232-236 | the middle point is equally far, coordinate by coordinate, from both ends of the segment |
| Geometry.IndexOf | src/android/com/affinitybridge/cordova/mapbox/Builder.java:137 | `indexOf` yields the first index holding the element, and -1 exactly when the element is absent |
| Geometry.Insert | src/android/com/affinitybridge/cordova/mapbox/Builder.java:138 | `add(i, x)` puts `x` at `i`, keeps the entries before `i` and shifts the rest up by one, adding one occurrence of `x` |
| Geometry.RemoveAt | src/android/com/affinitybridge/cordova/mapbox/Builder.java:313 | `remove(i)` drops exactly the entry at `i` and closes the gap, keeping the order of the others |
| Graph.Initial | src/android/com/affinitybridge/cordova/mapbox/Builder.java:59-63 | a new builder has empty lists, nothing selected or shown, and satisfies the invariant |
| Graph.AllocValid | src/android/com/affinitybridge/cordova/mapbox/Builder.java:270-272 | creating a vertex with its marker appends both to the aligned lists and shows the marker. The id and marker are fresh, the invariant holds, and the vertex counts as real exactly when it is not a ghost |
| Graph.UpdatePrevNext | src/android/com/affinitybridge/cordova/mapbox/Builder.java:223-230 | a present left end gets `next = right` and a present right end gets `prev = left`. Their other links and every other object are unchanged |
| Graph.UpdatePrevNextValid | src/android/com/affinitybridge/cordova/mapbox/Builder.java:223-230 | relinking keeps the invariant and the number of real vertices |
| Graph.Middle | src/android/com/affinitybridge/cordova/mapbox/Builder.java:211-220 | exactly one fresh ghost is appended, at the midpoint of the two ends, with `left` as its `prev` and `right` as its `next`. It becomes `left.middleRight` and `right.middleLeft`, and only those middle links of existing objects change |
| Graph.CreateMiddleMarker | src/android/com/affinitybridge/cordova/mapbox/Builder.java:206-221 | with either end absent nothing changes at all; otherwise the single-ghost effect of `Middle` |
| Graph.CreateMiddleMarkerValid | src/android/com/affinitybridge/cordova/mapbox/Builder.java:206-221 | creating a middle marker keeps the invariant and the number of real vertices |
| Selection.Deselect | src/android/com/affinitybridge/cordova/mapbox/Builder.java:161-176 | afterwards nothing is selected; with nothing selected beforehand the state is untouched; nothing but the selection changes |
| Selection.DeselectValid | src/android/com/affinitybridge/cordova/mapbox/Builder.java:161-176 | deselecting keeps the invariant and the real count |
| Selection.Relink | src/android/com/affinitybridge/cordova/mapbox/Builder.java:139-142 | the ghost becomes real and sits between its neighbours: `prev.next` and `next.prev` are the ghost, and no other object changes |
| Selection.FlankLeft | src/android/com/affinitybridge/cordova/mapbox/Builder.java:144 | with a previous vertex, one fresh ghost at the midpoint of the edge from it is appended, as the one new entry of the vertex list, and linked from both ends, recording them; the overlay gains exactly its marker, the next fresh handle. Without one nothing changes. Only the two ends change, and only in middle links |
| Selection.FlankRight | src/android/com/affinitybridge/cordova/mapbox/Builder.java:145 | with a next vertex, one fresh ghost at the midpoint of the edge to it is appended, as the one new entry of the vertex list, and linked from both ends, recording them; the overlay gains exactly its marker, the next fresh handle. Without one nothing changes. Only the two ends change, and only in middle links |
| Selection.Flank | src/android/com/affinitybridge/cordova/mapbox/Builder.java:144-145 | the vertex list gains exactly the ids of the new ghosts: the left one when there is a previous vertex, then the right one when there is a next vertex. The overlay gains exactly their markers, numbered in the same order, and nothing else. Existing objects change only in middle links, and only the vertex and its two neighbours change at all |
| Selection.MiddlePromotable | src/android/com/affinitybridge/cordova/mapbox/Builder.java:134-138 | a ghost made by `createMiddleMarker(left, right)` can be promoted exactly when the point of `right` is in the owner's list, so `getNext()` is never null for it |
| Selection.Raise | src/android/com/affinitybridge/cordova/mapbox/Builder.java:136-142 | the ghost's point enters the owner's list in front of its successor's first point. The ghost becomes real with its point and links kept, its neighbours link to it, and no other object changes |
| Selection.Promote | src/android/com/affinitybridge/cordova/mapbox/Builder.java:134-148 | the selection, last added vertex and drag are kept. The owner's list gains the ghost's point in front of its successor's first point. The vertex list gains exactly the new ghosts' ids: the left one when there is a previous vertex, then the right one. The vertex is real at its point with its links kept. No object other than the vertex and its neighbours changes |
| Selection.PromoteOverlay | src/android/com/affinitybridge/cordova/mapbox/Builder.java:144-145 | promotion shows the markers of the ghosts it creates, the left one's when there is a previous vertex and then the right one's, and every marker shown before stays shown; no other marker appears |
| Selection.PromotePositions | src/android/com/affinitybridge/cordova/mapbox/Builder.java:136-138 | the ghost's point is inserted directly in front of the first occurrence of its successor's point: one more occurrence, nothing else in the list changes |
| Selection.PromoteLinksLeft | src/android/com/affinitybridge/cordova/mapbox/Builder.java:139-144 | with a previous vertex, it links forward to the promoted vertex, and a fresh ghost at the midpoint of that edge sits between them and records both ends |
| Selection.PromoteLinksRight | src/android/com/affinitybridge/cordova/mapbox/Builder.java:139-145 | the next vertex links back to the promoted vertex, and a fresh ghost at the midpoint of that edge, after the left one, sits between them and records both ends |
| Selection.PromoteValid | src/android/com/affinitybridge/cordova/mapbox/Builder.java:134-148 | promotion keeps the invariant and adds exactly one real vertex |
| Selection.Select | src/android/com/affinitybridge/cordova/mapbox/Builder.java:127-159 | `selected` ends at the index whether or not promotion happens. Without promotion nothing else changes. With it the position list gains the ghost's point, the vertex is real, and the state is exactly that of promoting the vertex with the selection set |
| Selection.SelectValid | src/android/com/affinitybridge/cordova/mapbox/Builder.java:127-159 | selecting keeps the invariant and adds a real vertex exactly when a ghost was promoted |
| Editing.AddPoint | src/android/com/affinitybridge/cordova/mapbox/Builder.java:238-256 | a rejected position changes nothing. An accepted one is appended to the owner's list with one new real vertex, which becomes `lastAdded`. A ghost and the links to the previous vertex exist exactly when the list had entries and a last vertex. That ghost is listed after the new vertex, lies at the midpoint of the edge and records both ends. The overlay gains exactly the new markers. No object other than the previous vertex changes, and that one only in `next` and `middleRight` |
| Editing.AddPointValid | src/android/com/affinitybridge/cordova/mapbox/Builder.java:238-256 | adding keeps the invariant; the real count grows by one exactly when the owner accepts |
| Editing.UnlistValid | src/android/com/affinitybridge/cordova/mapbox/Builder.java:293-297 | removing the same index from both lists keeps them aligned and duplicate-free, and takes exactly that vertex out of the real count |
| Editing.Bridge | src/android/com/affinitybridge/cordova/mapbox/Builder.java:299-300 | the removed vertex's neighbours point at each other; with a neighbour missing the lists keep their length. No point moves, and no object other than the two neighbours changes |
| Editing.BridgeGhost | src/android/com/affinitybridge/cordova/mapbox/Builder.java:300 | with both neighbours present, one fresh ghost at the midpoint of their points is listed, recorded as both neighbours' middle link, and records them as its ends |
| Editing.BridgeValid | src/android/com/affinitybridge/cordova/mapbox/Builder.java:299-300 | bridging keeps the invariant and the number of real vertices |
| Editing.RemovePoint | src/android/com/affinitybridge/cordova/mapbox/Builder.java:286-323 | a negative index changes nothing. Otherwise the selection is cleared, the entry at the index leaves both lists, its marker leaves the overlay, and the first occurrence of its point leaves the owner's list |
| Editing.RemovePointRelinks | src/android/com/affinitybridge/cordova/mapbox/Builder.java:299 | after removal `prev.next` is the old `next` and `next.prev` is the old `prev` |
| Editing.RemovePointOverlay | src/android/com/affinitybridge/cordova/mapbox/Builder.java:295-312 | the overlay after removal is the old one with the bridging ghost's marker shown, when one is created, and the removed vertex's marker and both its ghosts' markers hidden; every other marker keeps its visibility |
| Editing.BridgeOverlay | src/android/com/affinitybridge/cordova/mapbox/Builder.java:300 | bridging shows the marker of the ghost it creates, when it creates one, and hides nothing, also for a vertex linked to itself |
| Editing.BridgeSelfLinked | src/android/com/affinitybridge/cordova/mapbox/Builder.java:299-300 | bridging a vertex that is its own `prev` and `next` keeps its links and makes the one fresh ghost both its left and its right ghost |
| Editing.RemovePointSelfLinked | src/android/com/affinitybridge/cordova/mapbox/Builder.java:295-312 | removing the one vertex of a ring of one lists and then hides a fresh ghost, which becomes both its flanking ghosts; the overlay loses only the vertex's own marker, and every other marker, the old ghost's among them, keeps its visibility |
| Editing.RemovePointHides | src/android/com/affinitybridge/cordova/mapbox/Builder.java:302-319 | the ghosts that flanked the removed vertex are hidden, and `lastAdded` falls back to its predecessor exactly when it was the removed vertex |
| Editing.RemovePointBridges | src/android/com/affinitybridge/cordova/mapbox/Builder.java:300 | with both neighbours present, exactly one ghost at the midpoint of their points is appended, linked between them and recording them as its ends |
| Editing.RemovePointFrame | src/android/com/affinitybridge/cordova/mapbox/Builder.java:286-323 | removal changes no vertex object other than the two neighbours of the removed vertex |
| Editing.RemovePointNoBridge | src/android/com/affinitybridge/cordova/mapbox/Builder.java:299-300 | with a neighbour missing, no ghost is created: the vertex list is the old one without the entry |
| Editing.RemovePointUnlists | src/android/com/affinitybridge/cordova/mapbox/Builder.java:295 | the removed vertex no longer occurs in the vertex list |
| Editing.RemovePointPositions | src/android/com/affinitybridge/cordova/mapbox/Builder.java:313 | exactly one occurrence of the removed point leaves the owner's list |
| Editing.RemovePointValid | src/android/com/affinitybridge/cordova/mapbox/Builder.java:286-323 | removal keeps the invariant and takes the removed vertex's contribution out of the real count |
| Editing.RemoveSelected | src/android/com/affinitybridge/cordova/mapbox/Builder.java:280-284 | with nothing selected nothing changes; otherwise the selected entry is removed and the selection cleared |
| Editing.RemoveSelectedValid | src/android/com/affinitybridge/cordova/mapbox/Builder.java:280-284 | removing the selection keeps the invariant and takes the selected vertex's contribution out of the real count |
| Editing.AddTwo | src/android/com/affinitybridge/cordova/mapbox/Builder.java:238-256 | adding two points to an empty builder lists the two real vertices and the ghost between them, which records both ends and can be promoted |
| Editing.AddThenPromote | src/android/com/affinitybridge/cordova/mapbox/Builder.java:127-148 | selecting that ghost promotes it: the owner's list becomes the first point, the midpoint, the second point, and three vertices are real |
| Rings.LayVertices | src/android/com/affinitybridge/cordova/mapbox/Builder.java:183-193 | one unlinked real vertex per position, in order, is appended, and its marker, the next fresh handle, is shown; every older object is unchanged |
| Rings.LayFrom | src/android/com/affinitybridge/cordova/mapbox/Builder.java:183-190 | the iterations from index `i` on lay the remaining positions, keeping the invariant and counting each new real vertex |
| Rings.StitchEdge | src/android/com/affinitybridge/cordova/mapbox/Builder.java:199-202 | one iteration extends the stitched prefix of the ring by the edge from vertex `j` to vertex `i`, and shows the marker of that edge's ghost, the next fresh handle |
| Rings.CloseRing | src/android/com/affinitybridge/cordova/mapbox/Builder.java:196-203 | after the loop every edge, including last to first, has its ghost and its links, and the N ghosts' markers are shown |
| Rings.InitMarkers | src/android/com/affinitybridge/cordova/mapbox/Builder.java:178-204 | the vertex list gains exactly the N new real vertices and then the N new ghosts, in order. Real vertex i has `prev` i-1 and `next` i+1 around the ring; ghost i is at the midpoint of the edge ending at i and records its two ends. The overlay gains exactly the 2N fresh marker handles. Older objects, the owner's list and the selection are unchanged |
| Rings.RingSteps | src/android/com/affinitybridge/cordova/mapbox/Builder.java:198-202 | following `next` from any ring vertex never meets a missing link; k steps land on the vertex k places further round the ring |
| Rings.RingForward | src/android/com/affinitybridge/cordova/mapbox/Builder.java:198-202 | before wrapping, the walk visits the vertices in the order of the owner's list |
| Rings.RingCloses | src/android/com/affinitybridge/cordova/mapbox/Builder.java:198 | N steps return to the start, so the walk is periodic: the last vertex links back to the first |
| Rings.RingLinks | src/android/com/affinitybridge/cordova/mapbox/Builder.java:201-202 | around the ring `prev` undoes `next`, and each vertex's right ghost is its successor's left ghost |
| Dragging.DragStart | src/android/com/affinitybridge/cordova/mapbox/Builder.java:333-343 | the selected vertex becomes active. The active index is the first occurrence of its point in the owner's list, or -1 when absent. Its marker leaves the overlay and nothing else changes |
| Dragging.DragLocation | src/android/com/affinitybridge/cordova/mapbox/Builder.java:345-368 | only the active entry of the owner's list changes, to the new point. Only points of the two middle markers change, each to the midpoint of its edge with the new point |
| Dragging.DragStartValid | src/android/com/affinitybridge/cordova/mapbox/Builder.java:333-343 | a start keeps the invariant and the real count |
| Dragging.DragLocationValid | src/android/com/affinitybridge/cordova/mapbox/Builder.java:345-368 | a move keeps the invariant and the real count |
| Dragging.DragDrop | src/android/com/affinitybridge/cordova/mapbox/Builder.java:370-382 | only the active entry of the owner's list changes. The selected vertex alone moves to the drop point, and its marker is shown again |
| Dragging.DragDropValid | src/android/com/affinitybridge/cordova/mapbox/Builder.java:370-382 | a drop keeps the invariant and the real count |
| Dragging.StartLocates | src/android/com/affinitybridge/cordova/mapbox/Builder.java:333-343 | a start on a vertex whose point is listed and which has a middle marker for each edge keeps the invariant, makes a move possible and fixes the active index at the first occurrence of the point |
| Dragging.StartShape | src/android/com/affinitybridge/cordova/mapbox/Builder.java:333-363 | after a start on a well-formed vertex, a move is possible and re-centres the middle marker on each side that has a neighbour |
| Dragging.DragTo | src/android/com/affinitybridge/cordova/mapbox/Builder.java:339-378 | a whole drag hides and then shows again the dragged vertex's marker |
| Dragging.DragToValid | src/android/com/affinitybridge/cordova/mapbox/Builder.java:333-382 | a whole drag keeps the invariant and the real count |
| Dragging.DragToMoves | src/android/com/affinitybridge/cordova/mapbox/Builder.java:337-377 | a whole drag overwrites the first occurrence of the vertex's point in the owner's list and leaves the vertex at the drop point |
| Dragging.DragToSelfLinked | src/android/com/affinitybridge/cordova/mapbox/Builder.java:345-378 | on the one vertex of a ring of one, a whole drag to `p` moves the vertex to `p` but leaves its one ghost at the midpoint of `p` and the old point |
| Dragging.DragToCentresLeft | src/android/com/affinitybridge/cordova/mapbox/Builder.java:357-359 | after a whole drag the left middle marker is at the midpoint of the previous vertex and the dragged one |
| Dragging.DragToCentresRight | src/android/com/affinitybridge/cordova/mapbox/Builder.java:361-363 | after a whole drag the right middle marker is at the midpoint of the dragged vertex and the next one |
| Dragging.OnDrag | src/android/com/affinitybridge/cordova/mapbox/Builder.java:384-405 | every known action is consumed and an unknown one is not. Enter, exit, end and unknown actions leave the state as it was, and the invariant holds |
| Dragging.CancelledDragHidesMarker | src/android/com/affinitybridge/cordova/mapbox/Builder.java:398-399 | a drag that starts and ends without a drop leaves the dragged vertex's marker off the overlay |
| Dragging.OnDragFixed | src/android/com/affinitybridge/cordova/mapbox/Builder.java:398-399 | corrected handler: the end of a drag shows the active marker again; all other actions are handled as before |
| Dragging.CancelledDragRestoresMarker | src/android/com/affinitybridge/cordova/mapbox/Builder.java:333-343 | with the correction, a start followed by an end restores the overlay exactly |
| Dragging.FixedAfterDrop | src/android/com/affinitybridge/cordova/mapbox/Builder.java:396-399 | after a drop, the corrected end of the drag behaves exactly as the original |
| Gestures.IndexIsSelected | src/android/com/affinitybridge/cordova/mapbox/Builder.java:96 | comparing a marker's list index with `selected` is true exactly for the selected vertex's marker, or for an unlisted marker when nothing is selected |
| Gestures.Tap | src/android/com/affinitybridge/cordova/mapbox/Builder.java:65-77 | a tap is consumed exactly when it hits a listed marker other than the selected one. Otherwise nothing changes. If consumed, the state is exactly that of selecting that marker's vertex, and one vertex more is real exactly when a ghost was promoted |
| Gestures.LongPress | src/android/com/affinitybridge/cordova/mapbox/Builder.java:79-91 | a long press is consumed exactly on a real vertex's marker; a ghost's marker changes nothing, wherever the ghost lies. If consumed, the state is exactly that of removing that vertex: the marker is hidden, the selection cleared, one position removed and one real vertex fewer |
| Gestures.Down | src/android/com/affinitybridge/cordova/mapbox/Builder.java:93-102 | a press starts a drag exactly on the selected vertex's marker, or, with nothing selected, on an unlisted marker |

## Left out

- Marker styling (icons, hotspots, images), rendering, `invalidate`, logging and the drag shadow are not modelled; none of them touches the modelled state.
- `Projection.fromPixels` and `mapView.getCenter()` are inputs: the drag point and the added position are parameters.
- The JTS `LineSegment.midPoint` computation uses doubles; coordinates are exact reals here and `Geometry.Mid` is their exact average.
- The owner is reduced to an admission predicate `accepts` for `add`. Its `reset`, `remove(index)` and `toJSON` are hooks with no modelled effect, since no owner implementation is part of this model. One owner serves every vertex.
- Vertex.java is not part of this model. A vertex's point is taken to be its marker's point. Builder.java never calls `setPrev`/`setNext` on a ghost, yet `select` reads a ghost's `getNext()` and `getPrev()`. So `left.setMiddleRight(ghost)` and `right.setMiddleLeft(ghost)` are taken to record `left` as the ghost's `prev` and `right` as its `next` (`Graph.Middle`). `Editing.AddThenPromote` shows such a ghost being promoted.
- Mapbox.java (the Cordova plugin bridge) and the `Builder.toJSON` stub are not modelled.
- `select(int)` (lines 122-125) only looks the vertex up by index; `Selection.Select` covers both overloads.
- Calls that throw in the source (a null link, an index of -1, an out-of-range list access) are excluded by preconditions: `CanPromote`, `Removable`, `CanTap`, `CanLongPress`, `CanLocate`, `CanDrop`, `CanDrag`, `CanHandle`, and the all-accepted requirement of `Rings.InitMarkers`. Further conditions do not come from a throw. `Graph.Valid` is required throughout. `CanPromote` also asks that the ghost's links do not name the ghost itself, which holds for every ghost `createMiddleMarker` makes. `Dragging.DragShape`, required by `StartShape`, `DragToCentresLeft` and `DragToCentresRight`, also asks that neither neighbour of the dragged vertex is the vertex itself and that its middle markers are distinct from it, from its neighbours and from each other; this excludes the one vertex of a ring of one.
- Rings.InitMarkers follows the code in closing the list into a ring unconditionally (line 198 starts with the edge from the last position to the first), so an open line also gets a ghost on that edge.
- Rings.InitMarkers: the markers of the new vertices are appended together with the vertices, not before the `addAll`; the final state is the same.
- Editing.RemovePoint: the removed marker leaves the overlay before re-linking rather than after. The ghost created in between has a fresh marker, so the final state is the same. Its contract states the prefix of the new lists; the appended ghost is stated by `Editing.RemovePointBridges` and `Editing.RemovePointNoBridge`.
- Editing.RemovePointRelinks assumes the removed vertex does not link to itself (`NoSelfLinks`), which the invariant does not exclude.
- Editing.RemovePointHides assumes `NoSelfLinks` in the same way.
- Editing.RemovePointBridges assumes `NoSelfLinks` in the same way.
- Editing.RemovePointNoBridge assumes `NoSelfLinks` in the same way.
- Editing.RemovePointUnlists assumes `NoSelfLinks` in the same way.
- Editing.BridgeGhost assumes `NoSelfLinks` in the same way.
- Editing.RemovePointOverlay assumes `NoSelfLinks` in the same way. On the one vertex of a ring of one the source reads the flanking ghosts after creating the new one, so it hides the new ghost's marker and leaves the old ghost shown with no real vertex left; `Editing.RemovePointSelfLinked` states that case.
- A vertex that links to itself is the one vertex of a ring of one. `initMarkers` with one position makes such a ring, and so does removal from a ring of two. Removing that vertex is covered by `Editing.RemovePoint`, `Editing.RemovePointFrame`, `Editing.RemovePointValid`, `Editing.RemovePointPositions` and `Editing.RemovePointSelfLinked`. A vertex linked to itself on one side only is covered by the first four, not by `Editing.RemovePointSelfLinked`.
- Dragging.DragToCentresLeft does not cover the one vertex of a ring of one. There the source leaves the ghost at the midpoint of the new and the old point rather than at the new point, as `Dragging.DragToSelfLinked` states.
- Dragging.DragToCentresRight does not cover the one vertex of a ring of one, for the same reason.
- Dragging.DragTo composes start, one move and a drop at the same point; drags with several moves are covered only by the single-step contracts.
- Dragging.DragLocation: the left middle marker's new point is stated only when the write to the right middle marker does not overwrite it (`MovesLeft`, `MovesRight`).
- The overlay is a set of marker handles; in the source it is backed by an `ArrayList` (line 64), where showing a marker already shown would list it twice. The source as written never does that, so the model's overlay agrees with it.
- Dragging.FixedAfterDrop relies on that set view: the correction shows the marker again only if it is not shown, and a literal `addItem` at the end of every drag would list it twice after a drop.
- The drag listener's dependence on Android delivering events in start, location, drop, end order is not modelled; each handler has its own precondition.

## Findings

| source | as written | input that shows it | evidently intended | confidence | as-written member | corrected member |
|---|---|---|---|---|---|---|
| src/android/com/affinitybridge/cordova/mapbox/Builder.java:398-399 | `ACTION_DRAG_ENDED` returns true and does nothing; only `dragDrop` (line 378) puts the marker removed by `dragStart` (line 339) back on the overlay | a drag of the selected vertex released outside the map view delivers `ACTION_DRAG_STARTED` and then `ACTION_DRAG_ENDED` with no `ACTION_DROP`, so the vertex's marker stays off the overlay and can no longer be tapped or dragged | the end of a drag shows the active vertex's marker again, when it is not already shown, whether or not a drop came first | medium, not executed | Dragging.CancelledDragHidesMarker | Dragging.OnDragFixed |

=== FILE: dragging.dfy ===
/**
 Dragging the selected vertex (the `MarkerDragEventListener` of the
 source): the drag takes the vertex's marker off the overlay, every move
 rewrites the vertex's entry in the owner's position list and re-centres
 the middle markers of its two edges, and the drop puts the vertex at the
 final point and shows its marker again.
 */
module Dragging {
  import opened Geometry
  import opened Graph

  /** The vertex object the selection names (`vertices.get(selected)`). */
  function SelectedId(e: Editor): VId
    requires 0 <= e.selected < |e.vertices|
  {
    e.vertices[e.selected]
  }

  /** The record of that vertex object. */
  function Dragged(e: Editor): Vertex
    requires 0 <= e.selected < |e.vertices|
  {
    Get(e, SelectedId(e))
  }

  /** `dragStart`: the selected vertex becomes the active one, the active
      index is where its point first occurs in the owner's list (-1 when
      it does not), and its marker leaves the overlay. */
  function DragStart(e: Editor): (r: Editor)
    requires 0 <= e.selected < |e.vertices|
    ensures r == e.(drag := r.drag, overlay := r.overlay)
    ensures r.drag.activeVertex == Some(SelectedId(e))
    ensures 0 <= r.drag.activeIndex ==>
      && r.drag.activeIndex < |e.positions|
      && e.positions[r.drag.activeIndex] == Dragged(e).point
      && Dragged(e).point !in e.positions[..r.drag.activeIndex]
    ensures r.drag.activeIndex < 0 <==> Dragged(e).point !in e.positions
    ensures r.drag.activeIndex >= -1
    ensures r.overlay == e.overlay - {MarkerOf(e, SelectedId(e))}
  {
    var v := SelectedId(e);
    e.(drag := Drag(Some(v), IndexOf(e.positions, Point(e, v))),
       overlay := e.overlay - {MarkerOf(e, v)})
  }

  lemma DragStartValid(e: Editor)
    requires Valid(e) && 0 <= e.selected < |e.vertices|
    ensures Valid(DragStart(e)) && RealCount(DragStart(e)) == RealCount(e)
  {
  }

  /** What `dragLocation` dereferences: an active vertex, an active index
      inside the owner's list, a selected vertex, and the middle marker of
      each edge the selected vertex has. */
  predicate CanLocate(e: Editor) {
    && e.drag.activeVertex.Some?
    && 0 <= e.drag.activeIndex < |e.positions|
    && 0 <= e.selected < |e.vertices|
    && (Dragged(e).prev.Some? ==> Dragged(e).middleLeft.Some?)
    && (Dragged(e).next.Some? ==> Dragged(e).middleRight.Some?)
  }

  /** Whether `dragLocation` writes the point of the left middle marker,
      and whether that write survives the write to the right one. */
  predicate MovesLeft(e: Editor)
    requires 0 <= e.selected < |e.vertices|
  {
    Dragged(e).prev.Some? && (Dragged(e).next.Some? ==> Dragged(e).middleRight != Dragged(e).middleLeft)
  }

  /** Whether the right middle marker lands at the midpoint of the new
      point and the untouched point of the next vertex. */
  predicate MovesRight(e: Editor)
    requires 0 <= e.selected < |e.vertices|
  {
    Dragged(e).next.Some? && (Dragged(e).prev.Some? ==> Dragged(e).next != Dragged(e).middleLeft)
  }

  /** `dragLocation` at map point `p`: the active entry of the owner's
      list becomes `p`; the left middle marker moves to the midpoint of the
      previous vertex and `p`, then the right one to the midpoint of `p`
      and the next vertex, whose point is read after the first write. The
      owner's `reset()` and the redraw are left out. */
  function DragLocation(e: Editor, p: Pos): (r: Editor)
    requires Valid(e) && CanLocate(e)
    ensures r == e.(arena := r.arena, positions := r.positions)
    ensures |r.arena| == |e.arena| && |r.positions| == |e.positions|
    ensures r.positions[e.drag.activeIndex] == p
    ensures forall k | 0 <= k < |e.positions| && k != e.drag.activeIndex :: r.positions[k] == e.positions[k]
    ensures forall x: VId :: Get(r, x).(point := Get(e, x).point) == Get(e, x)
    ensures forall x: VId | Some(x) != Dragged(e).middleLeft && Some(x) != Dragged(e).middleRight ::
      Get(r, x) == Get(e, x)
    ensures MovesLeft(e) ==>
      Point(r, Dragged(e).middleLeft.value) == Mid(Point(e, Dragged(e).prev.value), p)
    ensures MovesRight(e) ==>
      Point(r, Dragged(e).middleRight.value) == Mid(p, Point(e, Dragged(e).next.value))
  {
    var v := SelectedId(e);
    LinksOf(e.arena, v);
    var w := e.arena[v];
    var e1 := e.(positions := e.positions[e.drag.activeIndex := p]);
    var e2 :=
      if w.prev.Some? then
        Put(e1, w.middleLeft.value, Get(e1, w.middleLeft.value).(point := Mid(Point(e1, w.prev.value), p)))
      else e1;
    if w.next.Some? then
      Put(e2, w.middleRight.value, Get(e2, w.middleRight.value).(point := Mid(p, Point(e2, w.next.value))))
    else e2
  }

  lemma DragLocationValid(e: Editor, p: Pos)
    requires Valid(e) && CanLocate(e)
    ensures Valid(DragLocation(e, p)) && RealCount(DragLocation(e, p)) == RealCount(e)
  {
    var v := SelectedId(e);
    LinksOf(e.arena, v);
    var w := e.arena[v];
    var e1 := e.(positions := e.positions[e.drag.activeIndex := p]);
    var e2 := e1;
    if w.prev.Some? {
      var m := w.middleLeft.value;
      LinksOf(e1.arena, m);
      PutValid(e1, m, Get(e1, m).(point := Mid(Point(e1, w.prev.value), p)));
      e2 := Put(e1, m, Get(e1, m).(point := Mid(Point(e1, w.prev.value), p)));
    }
    if w.next.Some? {
      var m := w.middleRight.value;
      LinksOf(e2.arena, m);
      PutValid(e2, m, Get(e2, m).(point := Mid(p, Point(e2, w.next.value))));
    }
  }

  /** What `dragDrop` dereferences: a selected vertex and an active index
      inside the owner's list. */
  predicate CanDrop(e: Editor) {
    0 <= e.selected < |e.vertices| && 0 <= e.drag.activeIndex < |e.positions|
  }

  /** `dragDrop` at map point `p`: the active entry of the owner's list
      becomes `p`, the selected vertex moves to `p` and its marker is shown
      again. The middle markers are not touched. */
  function DragDrop(e: Editor, p: Pos): (r: Editor)
    requires Valid(e) && CanDrop(e)
    ensures r == e.(arena := r.arena, positions := r.positions, overlay := r.overlay)
    ensures |r.arena| == |e.arena| && |r.positions| == |e.positions|
    ensures r.positions[e.drag.activeIndex] == p
    ensures forall k | 0 <= k < |e.positions| && k != e.drag.activeIndex :: r.positions[k] == e.positions[k]
    ensures Get(r, SelectedId(e)) == Dragged(e).(point := p)
    ensures forall x: VId | x != SelectedId(e) :: Get(r, x) == Get(e, x)
    ensures r.overlay == e.overlay + {MarkerOf(e, SelectedId(e))}
  {
    var v := SelectedId(e);
    var e1 := e.(positions := e.positions[e.drag.activeIndex := p],
                 overlay := e.overlay + {MarkerOf(e, v)});
    Put(e1, v, Get(e1, v).(point := p))
  }

  lemma DragDropValid(e: Editor, p: Pos)
    requires Valid(e) && CanDrop(e)
    ensures Valid(DragDrop(e, p)) && RealCount(DragDrop(e, p)) == RealCount(e)
  {
    var v := SelectedId(e);
    LinksOf(e.arena, v);
    var e1 := e.(positions := e.positions[e.drag.activeIndex := p],
                 overlay := e.overlay + {MarkerOf(e, v)});
    assert MarkerOf(e, v) == e.markers[e.selected];
    PutValid(e1, v, Get(e1, v).(point := p));
  }

  /** What a whole drag of the selected vertex dereferences: its point is
      in the owner's list (otherwise the active index is -1 and the first
      move throws), and it has a middle marker for each edge. */
  predicate CanDrag(e: Editor)
    requires 0 <= e.selected < |e.vertices|
  {
    var w := Dragged(e);
    && w.point in e.positions
    && (w.prev.Some? ==> w.middleLeft.Some?)
    && (w.next.Some? ==> w.middleRight.Some?)
  }

  /** Starting a drag the source can carry out enables the moves. */
  lemma StartLocates(e: Editor)
    requires Valid(e) && 0 <= e.selected < |e.vertices| && CanDrag(e)
    ensures Valid(DragStart(e)) && CanLocate(DragStart(e))
    ensures SelectedId(DragStart(e)) == SelectedId(e) && Dragged(DragStart(e)) == Dragged(e)
    ensures DragStart(e).drag.activeIndex == IndexOf(e.positions, Dragged(e).point)
  {
    DragStartValid(e);
  }

  /** The local shape around the selected vertex that re-centring its
      middle markers relies on: a drag can be carried out, and none of its
      neighbours and middle markers is itself or another of them, except
      that both neighbours may be one vertex. The one vertex of a ring of
      one links to itself and is excluded; `DragToSelfLinked` covers it. */
  predicate DragShape(e: Editor)
    requires 0 <= e.selected < |e.vertices|
  {
    var v, w := SelectedId(e), Dragged(e);
    && CanDrag(e)
    && w.prev != Some(v) && w.next != Some(v) && w.middleLeft != Some(v) && w.middleRight != Some(v)
    && (w.middleLeft.Some? ==> w.middleLeft != w.prev && w.middleLeft != w.next && w.middleLeft != w.middleRight)
    && (w.middleRight.Some? ==> w.middleRight != w.prev && w.middleRight != w.next)
  }

  /** Starting a drag on a vertex of that shape enables the moves and
      keeps the vertex and its links in view. */
  lemma StartShape(e: Editor)
    requires Valid(e) && 0 <= e.selected < |e.vertices| && DragShape(e)
    ensures Valid(DragStart(e)) && CanLocate(DragStart(e))
    ensures SelectedId(DragStart(e)) == SelectedId(e) && Dragged(DragStart(e)) == Dragged(e)
    ensures DragStart(e).drag.activeIndex == IndexOf(e.positions, Dragged(e).point)
    ensures MovesLeft(DragStart(e)) <==> Dragged(e).prev.Some?
    ensures MovesRight(DragStart(e)) <==> Dragged(e).next.Some?
  {
  }

  /** A whole drag of the selected vertex: started, moved to `p` and
      dropped there. */
  function DragTo(e: Editor, p: Pos): (r: Editor)
    requires Valid(e) && 0 <= e.selected < |e.vertices| && CanDrag(e)
    ensures r.overlay == e.overlay + {MarkerOf(e, SelectedId(e))}
  {
    var s := DragStart(e);
    StartLocates(e);
    var l := DragLocation(s, p);
    DragLocationValid(s, p);
    DragDrop(l, p)
  }

  lemma DragToValid(e: Editor, p: Pos)
    requires Valid(e) && 0 <= e.selected < |e.vertices| && CanDrag(e)
    ensures Valid(DragTo(e, p)) && RealCount(DragTo(e, p)) == RealCount(e)
  {
    StartLocates(e);
    DragLocationValid(DragStart(e), p);
    DragDropValid(DragLocation(DragStart(e), p), p);
  }

  /** A drag writes `p` over the first entry of the vertex's point in the
      owner's list and leaves the vertex at `p`. */
  lemma DragToMoves(e: Editor, p: Pos)
    requires Valid(e) && 0 <= e.selected < |e.vertices| && CanDrag(e)
    ensures DragTo(e, p).positions == e.positions[IndexOf(e.positions, Dragged(e).point) := p]
    ensures Point(DragTo(e, p), SelectedId(e)) == p
  {
  }

  /** After a drag, the middle marker of the edge from the previous
      vertex sits at the midpoint of that edge. */
  lemma DragToCentresLeft(e: Editor, p: Pos)
    requires Valid(e) && 0 <= e.selected < |e.vertices| && DragShape(e)
    ensures Dragged(e).prev.Some? ==>
      Point(DragTo(e, p), Dragged(e).middleLeft.value) ==
      Mid(Point(DragTo(e, p), Dragged(e).prev.value), Point(DragTo(e, p), SelectedId(e)))
  {
  }

  /** After a drag, the middle marker of the edge to the next vertex sits
      at the midpoint of that edge. */
  lemma DragToCentresRight(e: Editor, p: Pos)
    requires Valid(e) && 0 <= e.selected < |e.vertices| && DragShape(e)
    ensures Dragged(e).next.Some? ==>
      Point(DragTo(e, p), Dragged(e).middleRight.value) ==
      Mid(Point(DragTo(e, p), SelectedId(e)), Point(DragTo(e, p), Dragged(e).next.value))
  {
  }

  /** The one vertex of a ring of one is its own neighbour on both sides,
      with one ghost as both middle markers. A drag to `p` moves the vertex
      to `p`, but leaves the ghost at the midpoint of `p` and the vertex's
      old point: the source reads the neighbour's point before the drop
      moves it. */
  lemma DragToSelfLinked(e: Editor, p: Pos)
    requires Valid(e) && 0 <= e.selected < |e.vertices| && CanDrag(e)
    requires Dragged(e).prev == Some(SelectedId(e)) && Dragged(e).next == Some(SelectedId(e))
    requires Dragged(e).middleLeft == Dragged(e).middleRight && Dragged(e).middleLeft != Some(SelectedId(e))
    ensures Point(DragTo(e, p), SelectedId(e)) == p
    ensures Point(DragTo(e, p), Dragged(e).middleLeft.value) == Mid(p, Dragged(e).point)
  {
    StartLocates(e);
  }

  /** The drag events the listener distinguishes (`DragEvent.getAction()`);
      `Other` stands for any other action code. */
  datatype DragAction = Started | Entered | Location(at: Pos) | Exited | Dropped(at: Pos) | Ended | Other

  /** What each handler dereferences. */
  predicate CanHandle(e: Editor, a: DragAction) {
    match a
    case Started => 0 <= e.selected < |e.vertices|
    case Location(_) => CanLocate(e)
    case Dropped(_) => CanDrop(e)
    case _ => true
  }

  /** `onDrag` as written: every known action is consumed, only start,
      location and drop change the state, and an unknown action is
      refused. */
  function OnDrag(e: Editor, a: DragAction): (r: Handled)
    requires Valid(e) && CanHandle(e, a)
    ensures r.consumed <==> !a.Other?
    ensures a.Entered? || a.Exited? || a.Ended? || a.Other? ==> r.editor == e
    ensures Valid(r.editor) && RealCount(r.editor) == RealCount(e)
  {
    match a
    case Started => DragStartValid(e); Handled(true, DragStart(e))
    case Entered => Handled(true, e)
    case Location(p) => DragLocationValid(e, p); Handled(true, DragLocation(e, p))
    case Exited => Handled(true, e)
    case Dropped(p) => DragDropValid(e, p); Handled(true, DragDrop(e, p))
    case Ended => Handled(true, e)
    case Other => Handled(false, e)
  }

  /** A drag that ends without a drop, as when the shadow is released
      outside the map view, leaves the dragged vertex's marker off the
      overlay: nothing after the start shows it again. */
  lemma CancelledDragHidesMarker(e: Editor)
    requires Valid(e) && 0 <= e.selected < |e.vertices|
    ensures MarkerOf(e, SelectedId(e)) !in OnDrag(OnDrag(e, Started).editor, Ended).editor.overlay
  {
  }

  /** The marker of the active vertex, when that vertex is still listed. */
  function ActiveMarker(e: Editor): (m: set<MId>)
    ensures m <= set k | 0 <= k < |e.markers| :: e.markers[k]
    ensures |m| <= 1
  {
    if e.drag.activeVertex.Some? && MarkerOf(e, e.drag.activeVertex.value) in e.markers
    then {MarkerOf(e, e.drag.activeVertex.value)} else {}
  }

  /** `onDrag` with the end of a drag showing the active vertex's marker
      again, whether or not a drop came first. */
  function OnDragFixed(e: Editor, a: DragAction): (r: Handled)
    requires Valid(e) && CanHandle(e, a)
    ensures r.consumed <==> !a.Other?
    ensures !a.Ended? ==> r == OnDrag(e, a)
    ensures a.Ended? ==> r.editor == e.(overlay := e.overlay + ActiveMarker(e))
    ensures Valid(r.editor) && RealCount(r.editor) == RealCount(e)
  {
    match a
    case Ended => Handled(true, e.(overlay := e.overlay + ActiveMarker(e)))
    case _ => OnDrag(e, a)
  }

  /** With the fix, a drag that ends without a drop leaves the overlay as
      it was before the drag started. */
  lemma CancelledDragRestoresMarker(e: Editor)
    requires Valid(e) && 0 <= e.selected < |e.vertices|
    requires MarkerOf(e, SelectedId(e)) in e.overlay
    ensures OnDragFixed(OnDragFixed(e, Started).editor, Ended).editor.overlay == e.overlay
  {
  }

  /** When the drop did come, the fix changes nothing: the marker is
      already shown. */
  lemma FixedAfterDrop(e: Editor, p: Pos)
    requires Valid(e) && CanDrop(e) && e.drag.activeVertex == Some(SelectedId(e))
    ensures OnDragFixed(OnDrag(e, Dropped(p)).editor, Ended) == OnDrag(OnDrag(e, Dropped(p)).editor, Ended)
  {
  }
}

=== FILE: editing.dfy ===
/**
 Adding a vertex at the map centre (`addPoint`) and removing one
 (`removePoint(index)` and `removePoint()`).
 */
module Editing {
  import opened Geometry
  import opened Graph
  import opened Selection

  /** Whether `addPoint` links the new vertex to the previously added one:
      the owner's list holds more than the new position and a previous
      vertex is on record. */
  predicate Chains(e: Editor) {
    |e.positions| + 1 > 1 && e.lastAdded.Some?
  }

  /** `addPoint(builder)` with `position` the map centre: when the owner
      admits the position, a real vertex is created there, the position is
      appended to the owner's list, the vertex is chained after the last
      added one with a ghost between them, and it becomes the last added. */
  function AddPoint(e: Editor, accepts: Pos -> bool, position: Pos): (r: Editor)
    requires Refers(|e.arena|, e.lastAdded)
    ensures !accepts(position) ==> r == e
    ensures accepts(position) ==>
      && r.positions == e.positions + [position]
      && r.lastAdded == Some(|e.arena|)
      && r.selected == e.selected && r.drag == e.drag
      && |r.vertices| == |e.vertices| + (if Chains(e) then 2 else 1)
      && r.vertices[..|e.vertices| + 1] == e.vertices + [|e.arena|]
      && Get(r, |e.arena|).point == position && !Get(r, |e.arena|).isGhost
      && Get(r, |e.arena|).next == None && Get(r, |e.arena|).middleRight == None
    ensures accepts(position) && !Chains(e) ==> Get(r, |e.arena|) == Vertex(position, false, None, None, None, None)
    ensures accepts(position) && Chains(e) ==>
      && Get(r, e.lastAdded.value).next == Some(|e.arena|)
      && Get(r, |e.arena|).prev == e.lastAdded
      && Get(r, e.lastAdded.value).middleRight == Some(|e.arena| + 1)
      && Get(r, |e.arena|).middleLeft == Some(|e.arena| + 1)
      && Get(r, |e.arena| + 1) == Vertex(Mid(Point(e, e.lastAdded.value), position), true, e.lastAdded, Some(|e.arena|), None, None)
      && r.vertices[|e.vertices| + 1] == |e.arena| + 1
    ensures forall x: VId | x < |e.arena| && Some(x) != e.lastAdded :: Get(r, x) == Get(e, x)
    ensures e.lastAdded.Some? ==>
      && Get(r, e.lastAdded.value).point == Get(e, e.lastAdded.value).point
      && Get(r, e.lastAdded.value).isGhost == Get(e, e.lastAdded.value).isGhost
      && Get(r, e.lastAdded.value).prev == Get(e, e.lastAdded.value).prev
      && Get(r, e.lastAdded.value).middleLeft == Get(e, e.lastAdded.value).middleLeft
    ensures r.overlay == e.overlay + (if accepts(position) then {e.nextMarker} else {})
                                   + (if accepts(position) && Chains(e) then {e.nextMarker + 1} else {})
  {
    if !accepts(position) then e
    else
      var v := |e.arena|;
      var e1 := Alloc(e, position, false);
      var e2 := e1.(positions := e1.positions + [position]);
      var e3 :=
        if |e2.positions| > 1 && e2.lastAdded.Some? then
          var e4 := CreateMiddleMarker(e2, e2.lastAdded, Some(v));
          UpdatePrevNext(e4, e4.lastAdded, Some(v))
        else e2;
      e3.(lastAdded := Some(v))
  }

  /** Adding keeps the invariant and counts one more real vertex exactly
      when the owner admits the position. */
  lemma AddPointValid(e: Editor, accepts: Pos -> bool, position: Pos)
    requires Valid(e)
    ensures Valid(AddPoint(e, accepts, position))
    ensures RealCount(AddPoint(e, accepts, position)) == RealCount(e) + (if accepts(position) then 1 else 0)
  {
    if accepts(position) {
      var v := |e.arena|;
      AllocValid(e, position, false);
      var e2 := Alloc(e, position, false).(positions := e.positions + [position]);
      if |e2.positions| > 1 && e2.lastAdded.Some? {
        CreateMiddleMarkerValid(e2, e2.lastAdded, Some(v));
        var e4 := CreateMiddleMarker(e2, e2.lastAdded, Some(v));
        UpdatePrevNextValid(e4, e4.lastAdded, Some(v));
      }
    }
  }

  /** The overlay handle of an optional ghost link. */
  function GhostMarker(e: Editor, o: Option<VId>): set<MId> {
    if o.Some? then {MarkerOf(e, o.value)} else {}
  }

  /** What `removePoint(index)` needs for the source not to throw: the index
      names a listed vertex, and that vertex's point occurs in the owner's
      list (otherwise `latLngs.remove(-1)` throws). */
  predicate Removable(e: Editor, index: int) {
    index < 0 || (index < |e.vertices| && Point(e, e.vertices[index]) in e.positions)
  }

  /** The lists without entry `index`, and the overlay without its marker.
      The source takes the marker out of the overlay after re-linking; the
      state is the same, as the ghost created in between has a fresh
      marker. */
  function Unlist(e: Editor, index: nat): (r: Editor)
    requires index < |e.vertices| == |e.markers|
    ensures r == e.(vertices := r.vertices, markers := r.markers, overlay := r.overlay)
    ensures r.vertices == RemoveAt(e.vertices, index) && r.markers == RemoveAt(e.markers, index)
    ensures r.overlay == e.overlay - {e.markers[index]}
  {
    e.(vertices := RemoveAt(e.vertices, index), markers := RemoveAt(e.markers, index),
       overlay := e.overlay - {e.markers[index]})
  }

  /** Removing an entry of the aligned lists, with nothing selected, keeps
      the invariant and takes that entry's contribution out of the count. */
  lemma UnlistValid(e: Editor, index: nat)
    requires Valid(e) && index < |e.vertices| && e.selected == -1
    ensures Valid(Unlist(e, index))
    ensures RealCount(Unlist(e, index)) + (if IsReal(e.arena, e.vertices[index]) then 1 else 0) == RealCount(e)
  {
    var r := Unlist(e, index);
    DistinctRemoveAt(e.vertices, index);
    DistinctRemoveAt(e.markers, index);
    forall k | 0 <= k < |r.vertices|
      ensures r.vertices[k] < |e.arena| && e.markerOf[r.vertices[k]] == r.markers[k]
    {
      if k >= index {
        assert r.vertices[k] == e.vertices[k + 1] && r.markers[k] == e.markers[k + 1];
      }
    }
    forall m | m in r.overlay
      ensures m in r.markers
    {
      var k :| 0 <= k < |e.markers| && e.markers[k] == m;
      assert k != index;
      if k < index {
        assert r.markers[k] == m;
      } else {
        assert r.markers[k - 1] == m;
      }
    }
    RealsRemove(e.vertices, e.arena, index);
  }

  /** `updatePrevNext(vertex.getPrev(), vertex.getNext())` followed by
      `createMiddleMarker(vertex.getPrev(), vertex.getNext())`: the
      neighbours of `id` are linked to each other, with a fresh ghost
      between them when both are present. Both links are read afresh for
      the second call, as in the source. */
  function Bridge(e: Editor, id: VId): (r: Editor)
    requires id < |e.arena| && LinksIn(|e.arena|, e.arena[id])
    ensures r == e.(arena := r.arena, markerOf := r.markerOf, vertices := r.vertices, markers := r.markers,
                    overlay := r.overlay, nextMarker := r.nextMarker)
    ensures |r.arena| >= |e.arena|
    ensures |r.vertices| >= |e.vertices| && r.vertices[..|e.vertices|] == e.vertices
    ensures |r.markers| >= |e.markers| && r.markers[..|e.markers|] == e.markers
    ensures |r.markerOf| >= |e.markerOf| && r.markerOf[..|e.markerOf|] == e.markerOf
    ensures forall x: VId | x < |e.arena| :: Get(r, x).point == Get(e, x).point
    ensures NoSelfLinks(Get(e, id), id) ==> Get(r, id) == Get(e, id)
    ensures NoSelfLinks(Get(e, id), id) && Get(e, id).prev.Some? ==>
      Get(r, Get(e, id).prev.value).next == Get(e, id).next
    ensures NoSelfLinks(Get(e, id), id) && Get(e, id).next.Some? ==>
      Get(r, Get(e, id).next.value).prev == Get(e, id).prev
    ensures NoSelfLinks(Get(e, id), id) && (Get(e, id).prev.None? || Get(e, id).next.None?) ==>
      |r.vertices| == |e.vertices| && |r.markers| == |e.markers|
    ensures forall x: VId | x < |e.arena| && Some(x) != Get(e, id).prev && Some(x) != Get(e, id).next ::
      Get(r, x) == Get(e, x)
  {
    var e1 := UpdatePrevNext(e, Get(e, id).prev, Get(e, id).next);
    Rejoin(e1, id)
  }

  /** The second half of `Bridge`: `createMiddleMarker` on the links of `id`
      as they stand. Only the ghost links of those two neighbours change,
      and at most one ghost is appended. */
  function Rejoin(e: Editor, id: VId): (r: Editor)
    requires id < |e.arena| && LinksIn(|e.arena|, e.arena[id])
    ensures r == e.(arena := r.arena, markerOf := r.markerOf, vertices := r.vertices, markers := r.markers,
                    overlay := r.overlay, nextMarker := r.nextMarker)
    ensures |r.arena| >= |e.arena|
    ensures |r.vertices| >= |e.vertices| && r.vertices[..|e.vertices|] == e.vertices
    ensures |r.markers| >= |e.markers| && r.markers[..|e.markers|] == e.markers
    ensures |r.markerOf| >= |e.markerOf| && r.markerOf[..|e.markerOf|] == e.markerOf
    ensures Get(e, id).prev.None? || Get(e, id).next.None? ==> r == e
    ensures forall x: VId | x < |e.arena| :: SameButMiddles(Get(r, x), Get(e, x))
    ensures forall x: VId | x < |e.arena| && Some(x) != Get(e, id).prev && Some(x) != Get(e, id).next ::
      Get(r, x) == Get(e, x)
  {
    CreateMiddleMarker(e, Get(e, id).prev, Get(e, id).next)
  }

  /** When the removed vertex had both neighbours, bridging appends one
      fresh ghost at the midpoint of their points, linked from both. */
  lemma BridgeGhost(e: Editor, id: VId)
    requires id < |e.arena| && LinksIn(|e.arena|, e.arena[id]) && NoSelfLinks(Get(e, id), id)
    requires Get(e, id).prev.Some? && Get(e, id).next.Some?
    ensures |Bridge(e, id).vertices| == |e.vertices| + 1 && Bridge(e, id).vertices[|e.vertices|] == |e.arena|
    ensures Get(Bridge(e, id), Get(e, id).prev.value).middleRight == Some(|e.arena|)
    ensures Get(Bridge(e, id), Get(e, id).next.value).middleLeft == Some(|e.arena|)
    ensures Get(Bridge(e, id), |e.arena|) ==
      Vertex(Mid(Point(e, Get(e, id).prev.value), Point(e, Get(e, id).next.value)), true,
             Get(e, id).prev, Get(e, id).next, None, None)
  {
  }

  /** Bridging shows the ghost it creates, when it creates one, and hides
      nothing. */
  lemma BridgeOverlay(e: Editor, id: VId)
    requires id < |e.arena| && LinksIn(|e.arena|, e.arena[id])
    ensures Bridge(e, id).overlay ==
      e.overlay + (if Get(e, id).prev.Some? && Get(e, id).next.Some? then {e.nextMarker} else {})
  {
    var e1 := UpdatePrevNext(e, Get(e, id).prev, Get(e, id).next);
    assert Get(e1, id) == Get(e, id);
  }

  /** Bridging keeps the invariant and the count of real vertices. */
  lemma BridgeValid(e: Editor, id: VId)
    requires Valid(e) && id < |e.arena|
    ensures Valid(Bridge(e, id)) && RealCount(Bridge(e, id)) == RealCount(e)
  {
    LinksOf(e.arena, id);
    UpdatePrevNextValid(e, Get(e, id).prev, Get(e, id).next);
    var e1 := UpdatePrevNext(e, Get(e, id).prev, Get(e, id).next);
    LinksOf(e1.arena, id);
    CreateMiddleMarkerValid(e1, Get(e1, id).prev, Get(e1, id).next);
  }

  /** The bookkeeping after re-linking: the ghosts flanking `id` leave the
      overlay, the first occurrence of its point leaves the owner's list,
      and `lastAdded` falls back to its predecessor if it was `id`. */
  function Forget(e: Editor, id: VId): (r: Editor)
    requires Point(e, id) in e.positions
    ensures r == e.(overlay := r.overlay, positions := r.positions, lastAdded := r.lastAdded)
    ensures r.overlay == e.overlay - GhostMarker(e, Get(e, id).middleLeft) - GhostMarker(e, Get(e, id).middleRight)
    ensures r.positions == RemoveAt(e.positions, IndexOf(e.positions, Point(e, id)))
    ensures r.lastAdded == if e.lastAdded == Some(id) then Get(e, id).prev else e.lastAdded
  {
    var w := Get(e, id);
    var e1 := e.(overlay := e.overlay - GhostMarker(e, w.middleLeft) - GhostMarker(e, w.middleRight));
    var e2 := e1.(positions := RemoveAt(e1.positions, IndexOf(e1.positions, Point(e1, id))));
    if e2.lastAdded == Some(id) then e2.(lastAdded := Get(e2, id).prev) else e2
  }

  lemma ForgetValid(e: Editor, id: VId)
    requires Valid(e) && id < |e.arena| && Point(e, id) in e.positions
    ensures Valid(Forget(e, id)) && RealCount(Forget(e, id)) == RealCount(e)
  {
    LinksOf(e.arena, id);
  }

  /** `removePoint(index)`: for a non-negative index, deselects, removes the
      vertex and its marker from the lists, links its neighbours to each
      other with a new ghost between them, hides its ghosts and its marker,
      removes the first occurrence of its point from the owner's list, and
      moves `lastAdded` back to its predecessor if it was the last added.
      `owner.remove(index)` is a hook with no modelled effect. */
  function RemovePoint(e: Editor, index: int): (r: Editor)
    requires Valid(e) && index < |e.vertices| && Removable(e, index)
    ensures index < 0 ==> r == e
    ensures 0 <= index ==> r.selected == -1 && r.drag == e.drag
    ensures 0 <= index ==> r.positions == RemoveAt(e.positions, IndexOf(e.positions, Point(e, e.vertices[index])))
    ensures 0 <= index ==>
      |r.vertices| >= |e.vertices| - 1 && r.vertices[..|e.vertices| - 1] == RemoveAt(e.vertices, index)
    ensures 0 <= index ==>
      |r.markers| >= |e.markers| - 1 && r.markers[..|e.markers| - 1] == RemoveAt(e.markers, index)
    ensures 0 <= index ==> e.markers[index] !in r.overlay
  {
    if index < 0 then e
    else
      var id := e.vertices[index];
      var e1 := Unlist(Deselect(e), index);
      LinksOf(e1.arena, id);
      assert |e1.vertices| == |e.vertices| - 1 && |e1.markers| == |e.markers| - 1;
      Forget(Bridge(e1, id), id)
  }

  /** After removal the neighbours of the removed vertex point at each
      other. */
  lemma RemovePointRelinks(e: Editor, index: nat)
    requires Valid(e) && index < |e.vertices| && Removable(e, index)
    requires NoSelfLinks(Get(e, e.vertices[index]), e.vertices[index])
    ensures Get(e, e.vertices[index]).prev.Some? ==>
      Get(RemovePoint(e, index), Get(e, e.vertices[index]).prev.value).next == Get(e, e.vertices[index]).next
    ensures Get(e, e.vertices[index]).next.Some? ==>
      Get(RemovePoint(e, index), Get(e, e.vertices[index]).next.value).prev == Get(e, e.vertices[index]).prev
  {
    var id := e.vertices[index];
    var e1 := Unlist(Deselect(e), index);
    LinksOf(e1.arena, id);
    var e2 := Bridge(e1, id);
    assert RemovePoint(e, index).arena == e2.arena;
  }

  /** After removal the ghosts that flanked the removed vertex are hidden,
      and `lastAdded` has fallen back to its predecessor if it was the
      removed vertex. */
  lemma RemovePointHides(e: Editor, index: nat)
    requires Valid(e) && index < |e.vertices| && Removable(e, index)
    requires NoSelfLinks(Get(e, e.vertices[index]), e.vertices[index])
    ensures Get(e, e.vertices[index]).middleLeft.Some? ==>
      MarkerOf(e, Get(e, e.vertices[index]).middleLeft.value) !in RemovePoint(e, index).overlay
    ensures Get(e, e.vertices[index]).middleRight.Some? ==>
      MarkerOf(e, Get(e, e.vertices[index]).middleRight.value) !in RemovePoint(e, index).overlay
    ensures RemovePoint(e, index).lastAdded ==
      if e.lastAdded == Some(e.vertices[index]) then Get(e, e.vertices[index]).prev else e.lastAdded
  {
    var id := e.vertices[index];
    var e1 := Unlist(Deselect(e), index);
    LinksOf(e1.arena, id);
    var e2 := Bridge(e1, id);
    assert Get(e2, id) == Get(e, id);
    var v := Get(e, id);
    assert v.middleLeft.Some? ==> MarkerOf(e2, v.middleLeft.value) == MarkerOf(e, v.middleLeft.value);
    assert v.middleRight.Some? ==> MarkerOf(e2, v.middleRight.value) == MarkerOf(e, v.middleRight.value);
  }

  /** The overlay after removal: the ghost created between the neighbours
      is shown, and the removed vertex's marker and its two ghosts' markers
      are hidden; every other marker keeps its visibility. */
  lemma RemovePointOverlay(e: Editor, index: nat)
    requires Valid(e) && index < |e.vertices| && Removable(e, index)
    requires NoSelfLinks(Get(e, e.vertices[index]), e.vertices[index])
    ensures var v := Get(e, e.vertices[index]);
      RemovePoint(e, index).overlay ==
        (e.overlay + (if v.prev.Some? && v.next.Some? then {e.nextMarker} else {}))
        - {e.markers[index]} - GhostMarker(e, v.middleLeft) - GhostMarker(e, v.middleRight)
  {
    var id := e.vertices[index];
    var v := Get(e, id);
    var e1 := Unlist(Deselect(e), index);
    LinksOf(e1.arena, id);
    BridgeOverlay(e1, id);
    var e2 := Bridge(e1, id);
    var added: set<MId> := if v.prev.Some? && v.next.Some? then {e.nextMarker} else {};
    assert e2.overlay == e.overlay - {e.markers[index]} + added;
    assert Get(e2, id) == v;
    assert GhostMarker(e2, v.middleLeft) == GhostMarker(e, v.middleLeft);
    assert GhostMarker(e2, v.middleRight) == GhostMarker(e, v.middleRight);
    assert RemovePoint(e, index).overlay == e2.overlay - GhostMarker(e, v.middleLeft) - GhostMarker(e, v.middleRight);
    assert e.markers[index] !in added;
    HideAfterShow(e.overlay, e.markers[index], added, GhostMarker(e, v.middleLeft), GhostMarker(e, v.middleRight));
  }

  /** Removing the one vertex of a ring of one: it is its own neighbour on
      both sides, so the ghost created between it and itself becomes both
      of its flanking ghosts and is the one hidden again. Only the
      vertex's own marker leaves the overlay: every other marker, the
      marker of the ghost it flanked before among them, keeps its
      visibility. */
  lemma RemovePointSelfLinked(e: Editor, index: nat)
    requires Valid(e) && index < |e.vertices| && Removable(e, index)
    requires Get(e, e.vertices[index]).prev == Some(e.vertices[index])
    requires Get(e, e.vertices[index]).next == Some(e.vertices[index])
    ensures Get(RemovePoint(e, index), e.vertices[index]).middleLeft == Some(|e.arena|)
    ensures Get(RemovePoint(e, index), e.vertices[index]).middleRight == Some(|e.arena|)
    ensures |RemovePoint(e, index).vertices| == |e.vertices| && RemovePoint(e, index).vertices[|e.vertices| - 1] == |e.arena|
    ensures RemovePoint(e, index).overlay == e.overlay - {e.markers[index]}
  {
    var id := e.vertices[index];
    var e1 := Unlist(Deselect(e), index);
    LinksOf(e1.arena, id);
    BridgeSelfLinked(e1, id);
    assert e.nextMarker != e.markers[index];
  }

  /** Bridging a vertex linked to itself on both sides leaves its links as
      they were and makes the fresh ghost both of its flanking ghosts. */
  lemma BridgeSelfLinked(e: Editor, id: VId)
    requires id < |e.arena| && LinksIn(|e.arena|, e.arena[id])
    requires Get(e, id).prev == Some(id) && Get(e, id).next == Some(id)
    ensures Get(Bridge(e, id), id) == Get(e, id).(middleLeft := Some(|e.arena|), middleRight := Some(|e.arena|))
    ensures Bridge(e, id).markerOf == e.markerOf + [e.nextMarker]
    ensures Bridge(e, id).overlay == e.overlay + {e.nextMarker}
    ensures Bridge(e, id).vertices == e.vertices + [|e.arena|]
  {
    var e1 := UpdatePrevNext(e, Some(id), Some(id));
    assert Get(e1, id) == Get(e, id);
  }

  /** When the removed vertex had both neighbours, one fresh ghost at the
      midpoint of their points now sits between them. */
  lemma RemovePointBridges(e: Editor, index: nat)
    requires Valid(e) && index < |e.vertices| && Removable(e, index)
    requires NoSelfLinks(Get(e, e.vertices[index]), e.vertices[index])
    requires Get(e, e.vertices[index]).prev.Some? && Get(e, e.vertices[index]).next.Some?
    ensures |RemovePoint(e, index).vertices| == |e.vertices|
    ensures RemovePoint(e, index).vertices[|e.vertices| - 1] == |e.arena|
    ensures Get(RemovePoint(e, index), Get(e, e.vertices[index]).prev.value).middleRight == Some(|e.arena|)
    ensures Get(RemovePoint(e, index), Get(e, e.vertices[index]).next.value).middleLeft == Some(|e.arena|)
    ensures Get(RemovePoint(e, index), |e.arena|) ==
      Vertex(Mid(Point(e, Get(e, e.vertices[index]).prev.value), Point(e, Get(e, e.vertices[index]).next.value)),
             true, Get(e, e.vertices[index]).prev, Get(e, e.vertices[index]).next, None, None)
  {
  }

  /** Removal changes no vertex object other than the two neighbours of
      the removed vertex: the removed vertex itself keeps its links, and
      every other vertex is as it was. */
  lemma RemovePointFrame(e: Editor, index: nat)
    requires Valid(e) && index < |e.vertices| && Removable(e, index)
    ensures forall x: VId | x < |e.arena| && Some(x) != Get(e, e.vertices[index]).prev && Some(x) != Get(e, e.vertices[index]).next ::
      Get(RemovePoint(e, index), x) == Get(e, x)
  {
  }

  /** When the removed vertex lacked a neighbour, no ghost is created: the
      vertex list is one shorter. */
  lemma RemovePointNoBridge(e: Editor, index: nat)
    requires Valid(e) && index < |e.vertices| && Removable(e, index)
    requires NoSelfLinks(Get(e, e.vertices[index]), e.vertices[index])
    requires Get(e, e.vertices[index]).prev.None? || Get(e, e.vertices[index]).next.None?
    ensures |RemovePoint(e, index).vertices| == |e.vertices| - 1
    ensures RemovePoint(e, index).vertices == RemoveAt(e.vertices, index)
  {
  }

  /** After removal the removed vertex is no longer listed. */
  lemma RemovePointUnlists(e: Editor, index: nat)
    requires Valid(e) && index < |e.vertices| && Removable(e, index)
    requires NoSelfLinks(Get(e, e.vertices[index]), e.vertices[index])
    ensures e.vertices[index] !in RemovePoint(e, index).vertices
  {
    var id := e.vertices[index];
    var r := RemovePoint(e, index);
    DistinctPairs(e.vertices);
    var rest := RemoveAt(e.vertices, index);
    assert id !in rest by {
      forall k | 0 <= k < |rest|
        ensures rest[k] != id
      {
        if k < index {
          assert rest[k] == e.vertices[k];
        } else {
          assert rest[k] == e.vertices[k + 1];
        }
      }
    }
    if Get(e, id).prev.Some? && Get(e, id).next.Some? {
      RemovePointBridges(e, index);
      assert r.vertices == rest + [|e.arena|];
    } else {
      RemovePointNoBridge(e, index);
    }
  }

  /** Removal takes exactly one occurrence of the removed vertex's point
      out of the owner's list. */
  lemma RemovePointPositions(e: Editor, index: nat)
    requires Valid(e) && index < |e.vertices| && Removable(e, index)
    ensures multiset(RemovePoint(e, index).positions) == multiset(e.positions) - multiset{Point(e, e.vertices[index])}
    ensures |RemovePoint(e, index).positions| == |e.positions| - 1
  {
  }

  /** Removal keeps the invariant and takes the removed vertex's
      contribution out of the count of real vertices. */
  lemma RemovePointValid(e: Editor, index: int)
    requires Valid(e) && index < |e.vertices| && Removable(e, index)
    ensures Valid(RemovePoint(e, index))
    ensures 0 <= index ==>
      RealCount(RemovePoint(e, index)) + (if IsReal(e.arena, e.vertices[index]) then 1 else 0) == RealCount(e)
  {
    if 0 <= index {
      var id := e.vertices[index];
      UnlistValid(Deselect(e), index);
      var e1 := Unlist(Deselect(e), index);
      BridgeValid(e1, id);
      ForgetValid(Bridge(e1, id), id);
    }
  }

  /** `removePoint()`: removes the selected vertex, or does nothing when
      none is selected. */
  function RemoveSelected(e: Editor): (r: Editor)
    requires Valid(e) && Removable(e, e.selected)
    ensures e.selected < 0 ==> r == e
    ensures 0 <= e.selected ==>
      && r.selected == -1
      && |r.vertices| >= |e.vertices| - 1
      && r.vertices[..|e.vertices| - 1] == RemoveAt(e.vertices, e.selected)
      && e.markers[e.selected] !in r.overlay
  {
    RemovePoint(e, if e.selected >= 0 then e.selected else -1)
  }

  /** Removing the selection keeps the invariant and takes the selected
      vertex's contribution out of the count of real vertices. */
  lemma RemoveSelectedValid(e: Editor)
    requires Valid(e) && Removable(e, e.selected)
    ensures Valid(RemoveSelected(e))
    ensures 0 <= e.selected ==>
      RealCount(RemoveSelected(e)) + (if IsReal(e.arena, e.vertices[e.selected]) then 1 else 0) == RealCount(e)
    ensures e.selected < 0 ==> RealCount(RemoveSelected(e)) == RealCount(e)
  {
    RemovePointValid(e, if e.selected >= 0 then e.selected else -1);
  }

  /** An owner that admits every position. */
  predicate AcceptAll(p: Pos) {
    true
  }

  /** Adding `a` to an empty builder makes it the one real vertex, the
      last one added, and the whole owner's list. */
  lemma AddOne(a: Pos)
    ensures var e := AddPoint(Initial([]), AcceptAll, a);
      && e.vertices == [0] && e.positions == [a] && e.lastAdded == Some(0)
      && Chains(e) && Point(e, 0) == a && |e.arena| == 1
  {
  }

  /** The shape after adding `a` then `b` to an empty builder: two real
      vertices chained through a ghost at their midpoint whose links name
      both. */
  lemma AddTwoShape(a: Pos, b: Pos)
    ensures var e := AddPoint(AddPoint(Initial([]), AcceptAll, a), AcceptAll, b);
      && e.vertices == [0, 1, 2] && e.positions == [a, b]
      && Get(e, 2) == Vertex(Mid(a, b), true, Some(0), Some(1), None, None)
      && Promotes(e, 2, AcceptAll) && CanPromote(e, 2)
  {
    AddOne(a);
    var e1 := AddPoint(Initial([]), AcceptAll, a);
    assert AcceptAll(b);
    var e := AddPoint(e1, AcceptAll, b);
    assert e.vertices[..2] == [0, 1];
    assert e.vertices == [0, 1, 2];
    assert Point(e, 1) == b;
  }

  /** Adding `a` then `b` to an empty builder chains them through a ghost
      at their midpoint whose links name both, and that ghost can be
      promoted. */
  lemma AddTwo(a: Pos, b: Pos)
    ensures var e := AddPoint(AddPoint(Initial([]), AcceptAll, a), AcceptAll, b);
      && Valid(e) && RealCount(e) == 2 && e.vertices == [0, 1, 2] && e.positions == [a, b]
      && Get(e, 2) == Vertex(Mid(a, b), true, Some(0), Some(1), None, None)
      && Promotes(e, 2, AcceptAll) && CanPromote(e, 2)
  {
    AddTwoShape(a, b);
    AddPointValid(Initial([]), AcceptAll, a);
    assert AcceptAll(a) && AcceptAll(b);
    AddPointValid(AddPoint(Initial([]), AcceptAll, a), AcceptAll, b);
  }

  /** Selecting the ghost of `AddTwo` promotes it: the owner's list
      becomes `a`, the midpoint, `b`, and three vertices are real. */
  lemma AddThenPromote(a: Pos, b: Pos)
    ensures var e := AddPoint(AddPoint(Initial([]), AcceptAll, a), AcceptAll, b);
      && Valid(e) && CanPromote(e, 2) && e.vertices == [0, 1, 2]
      && Select(e, 2, AcceptAll).positions == [a, Mid(a, b), b]
      && Select(e, 2, AcceptAll).selected == 2
      && RealCount(Select(e, 2, AcceptAll)) == 3
  {
    AddTwo(a, b);
    var e := AddPoint(AddPoint(Initial([]), AcceptAll, a), AcceptAll, b);
    SelectValid(e, 2, AcceptAll);
    var s := e.(selected := 2);
    assert LinksIn(|s.arena|, s.arena[2]);
    PromotePositions(s, 2);
    var k := IndexOf(e.positions, b);
    assert Point(s, 2) == Mid(a, b) && Point(s, 1) == b;
    assert Select(e, 2, AcceptAll).positions == Insert(e.positions, k, Mid(a, b));
    InsertMid(a, b);
  }
}

=== FILE: geometry.dfy ===
/**
 Coordinates and the list operations the editor performs on the owner's
 position list (`java.util.ArrayList<LatLng>` in the source).
 */
module Geometry {

  /** A geographic coordinate. Coordinates are exact reals: the midpoint
      computation of the source is modelled without floating point. */
  datatype Pos = Pos(lat: real, lon: real)

  /** The midpoint of the segment from `a` to `b`, component-wise. */
  function Mid(a: Pos, b: Pos): (m: Pos)
    ensures m.lat - a.lat == b.lat - m.lat
    ensures m.lon - a.lon == b.lon - m.lon
  {
    Pos((a.lat + b.lat) / 2.0, (a.lon + b.lon) / 2.0)
  }

  /** The midpoint does not depend on the direction of the segment. */
  lemma MidSymmetric(a: Pos, b: Pos)
    ensures Mid(a, b) == Mid(b, a)
  {
  }

  /** `indexOf`: the index of the first occurrence of `x` in `s`, or -1. */
  function IndexOf<T(==)>(s: seq<T>, x: T): (i: int)
    ensures -1 <= i < |s|
    ensures 0 <= i ==> s[i] == x && x !in s[..i]
    ensures i < 0 <==> x !in s
  {
    if |s| == 0 then -1
    else if s[0] == x then 0
    else
      var j := IndexOf(s[1..], x);
      assert s[1..][..(if j < 0 then 0 else j)] == s[1..1 + (if j < 0 then 0 else j)];
      if j < 0 then -1 else j + 1
  }

  /** `add(index, x)`: `x` is inserted so that it sits at index `i`. */
  function Insert<T>(s: seq<T>, i: nat, x: T): (r: seq<T>)
    requires i <= |s|
    ensures |r| == |s| + 1
    ensures r[i] == x
    ensures forall k | 0 <= k < i :: r[k] == s[k]
    ensures forall k | i <= k < |s| :: r[k + 1] == s[k]
    ensures multiset(r) == multiset(s) + multiset{x}
  {
    assert s == s[..i] + s[i..];
    s[..i] + [x] + s[i..]
  }

  /** `remove(index)`: the element at `i` leaves, the rest close up. */
  function RemoveAt<T>(s: seq<T>, i: nat): (r: seq<T>)
    requires i < |s|
    ensures |r| == |s| - 1
    ensures forall k | 0 <= k < i :: r[k] == s[k]
    ensures forall k | i <= k < |r| :: r[k] == s[k + 1]
    ensures multiset(r) == multiset(s) - multiset{s[i]}
  {
    assert s == s[..i] + [s[i]] + s[i + 1..];
    s[..i] + s[i + 1..]
  }

  /** No element of `s` occurs twice. Stated element by element from the
      back, so that it unfolds one step at a time. */
  predicate Distinct<T(==)>(s: seq<T>)
    decreases |s|
  {
    |s| == 0 || (Distinct(s[..|s| - 1]) && s[|s| - 1] !in s[..|s| - 1])
  }

  /** Hiding `m` before showing markers that do not include it is the same
      as hiding it after. */
  lemma HideAfterShow<T>(o: set<T>, m: T, n: set<T>, a: set<T>, b: set<T>)
    requires m !in n
    ensures (o - {m} + n) - a - b == (o + n) - {m} - a - b
  {
  }

  lemma DistinctAppend<T>(s: seq<T>, x: T)
    requires Distinct(s) && x !in s
    ensures Distinct(s + [x])
  {
  }

  /** `Distinct` means that any two positions hold different elements. */
  lemma {:induction false} DistinctPairs<T>(s: seq<T>)
    requires Distinct(s)
    ensures forall i, j | 0 <= i < j < |s| :: s[i] != s[j]
    decreases |s|
  {
    if |s| > 0 {
      var init := s[..|s| - 1];
      DistinctPairs(init);
      forall i, j | 0 <= i < j < |s|
        ensures s[i] != s[j]
      {
        if j < |s| - 1 {
          assert s[i] == init[i] && s[j] == init[j];
        } else {
          assert s[i] == init[i];
        }
      }
    }
  }

  lemma {:induction false} PairsDistinct<T>(s: seq<T>)
    requires forall i, j | 0 <= i < j < |s| :: s[i] != s[j]
    ensures Distinct(s)
    decreases |s|
  {
    if |s| > 0 {
      var init := s[..|s| - 1];
      PairsDistinct(init);
      forall k | 0 <= k < |init|
        ensures init[k] != s[|s| - 1]
      {
        assert init[k] == s[k];
      }
    }
  }

  /** Removing an element keeps the others distinct. */
  lemma DistinctRemoveAt<T>(s: seq<T>, i: nat)
    requires Distinct(s) && i < |s|
    ensures Distinct(RemoveAt(s, i))
  {
    DistinctPairs(s);
    var r := RemoveAt(s, i);
    forall a, b | 0 <= a < b < |r|
      ensures r[a] != r[b]
    {
      var a' := if a < i then a else a + 1;
      var b' := if b < i then b else b + 1;
      assert r[a] == s[a'] && r[b] == s[b'];
    }
    PairsDistinct(r);
  }

  /** The midpoint of `a` and `b` inserted before the first `b` of the
      list `a`, `b` lands between them, also when the two coincide. */
  lemma InsertMid(a: Pos, b: Pos)
    ensures Insert([a, b], IndexOf([a, b], b), Mid(a, b)) == [a, Mid(a, b), b]
  {
    var m := Mid(a, b);
    if a == b {
      InsertBetween(a, b, 0, m);
    } else {
      InsertBetween(a, b, 1, m);
    }
  }

  /** Inserting `m` before the first `b` of `a`, `b` gives `a`, `m`, `b`,
      provided `m` is `a` when `a` and `b` coincide. */
  lemma InsertBetween(a: Pos, b: Pos, k: nat, m: Pos)
    requires k == IndexOf([a, b], b)
    requires a == b ==> m == a
    ensures Insert([a, b], k, m) == [a, m, b]
  {
    var ps := Insert([a, b], k, m);
    assert |ps| == 3;
    if a == b {
      assert k == 0;
      assert ps[0] == m && ps[1] == a && ps[2] == b;
    } else {
      assert k == 1;
      assert ps[0] == a && ps[1] == m && ps[2] == b;
    }
  }
}

=== FILE: gestures.dfy ===
/**
 The three marker gestures the overlay reports to the builder: a tap
 selects the tapped vertex, a long press removes a real vertex, and a press
 on the selected vertex starts a drag.
 */
module Gestures {
  import opened Geometry
  import opened Graph
  import opened Selection
  import opened Editing

  /** Under the invariant, the list index of marker `m` is the selection
      exactly when `m` is the selected vertex's marker, or when nothing is
      selected and `m` is not listed. */
  lemma IndexIsSelected(e: Editor, m: MId)
    requires Valid(e)
    ensures IndexOf(e.markers, m) == e.selected <==>
      (0 <= e.selected && e.markers[e.selected] == m) || (e.selected == -1 && m !in e.markers)
  {
    DistinctPairs(e.markers);
  }

  /** What `onItemSingleTapUp` on marker `m` needs for the selection it
      makes: the marker is listed unless nothing is selected, and a ghost
      the owner admits can be promoted. */
  predicate CanTap(e: Editor, m: MId, accepts: Pos -> bool) {
    && (m in e.markers || e.selected == -1)
    && var i := IndexOf(e.markers, m);
       (0 <= i < |e.vertices| && i != e.selected && Promotes(e, i, accepts) ==> CanPromote(e, e.vertices[i]))
  }

  /** `onItemSingleTapUp`: a tap on the selected vertex's marker is not
      consumed; a tap on any other marker selects its vertex. */
  function Tap(e: Editor, m: MId, accepts: Pos -> bool): (r: Handled)
    requires Valid(e) && CanTap(e, m, accepts)
    ensures r.consumed <==> m in e.markers && !(0 <= e.selected && e.markers[e.selected] == m)
    ensures !r.consumed ==> r.editor == e
    ensures r.consumed ==> 0 <= r.editor.selected < |e.markers| && e.markers[r.editor.selected] == m
    ensures r.consumed ==> r.editor == Select(e, IndexOf(e.markers, m), accepts)
    ensures Valid(r.editor)
    ensures RealCount(r.editor) ==
      RealCount(e) + (if r.consumed && Promotes(e, IndexOf(e.markers, m), accepts) then 1 else 0)
  {
    IndexIsSelected(e, m);
    var index := IndexOf(e.markers, m);
    if index == e.selected then Handled(false, e)
    else
      SelectValid(e, index, accepts);
      Handled(true, Select(e, index, accepts))
  }

  /** What `onItemLongPress` on marker `m` dereferences: the marker is
      listed and, for a real vertex, its point is in the owner's list. A
      ghost is only looked at, so its point may be anywhere. */
  predicate CanLongPress(e: Editor, m: MId) {
    && m in e.markers
    && IndexOf(e.markers, m) < |e.vertices|
    && (Get(e, e.vertices[IndexOf(e.markers, m)]).isGhost || Removable(e, IndexOf(e.markers, m)))
  }

  /** `onItemLongPress`: a long press on a ghost is not consumed; on a real
      vertex it removes that vertex, clears the selection and hides the
      marker. */
  function LongPress(e: Editor, m: MId): (r: Handled)
    requires Valid(e) && CanLongPress(e, m)
    ensures r.consumed <==> exists k | 0 <= k < |e.markers| :: e.markers[k] == m && !Get(e, e.vertices[k]).isGhost
    ensures !r.consumed ==> r.editor == e
    ensures r.consumed ==>
      && m !in r.editor.overlay
      && r.editor.selected == -1
      && |r.editor.positions| == |e.positions| - 1
    ensures r.consumed ==>
      !Get(e, e.vertices[IndexOf(e.markers, m)]).isGhost && r.editor == RemovePoint(e, IndexOf(e.markers, m))
    ensures Valid(r.editor)
    ensures RealCount(r.editor) + (if r.consumed then 1 else 0) == RealCount(e)
  {
    DistinctPairs(e.markers);
    var index := IndexOf(e.markers, m);
    if Get(e, e.vertices[index]).isGhost then Handled(false, e)
    else
      RemovePointValid(e, index);
      RemovePointPositions(e, index);
      Handled(true, RemovePoint(e, index))
  }

  /** `onItemDown`: the press is consumed, and a drag started, exactly
      when the marker's list index equals the selection. For a listed
      marker that is when its vertex is the selected one. */
  function Down(e: Editor, m: MId): (consumed: bool)
    requires Valid(e)
    ensures m in e.markers ==> (consumed <==> 0 <= e.selected && e.markers[e.selected] == m)
    ensures m !in e.markers ==> (consumed <==> e.selected == -1)
  {
    IndexIsSelected(e, m);
    IndexOf(e.markers, m) == e.selected
  }
}

=== FILE: graph.dfy ===
/**
 The editor state of `Builder`: an arena of vertex objects addressed by
 stable ids, the parallel vertex and marker collections, the owner's
 position list, the hit-testable overlay, and the selection and drag
 scalars. Also the two link primitives `updatePrevNext` and
 `createMiddleMarker`, and the invariant every operation keeps.

 Operations are total functions whose contracts describe the vertex
 objects through `Get`; that they keep `Valid` is stated by a companion
 lemma next to each of them.
 */
module Graph {
  import opened Geometry

  datatype Option<T> = None | Some(value: T)

  /** A vertex object is identified by its position in the arena, which
      only ever grows; a marker handle by the number it was created with. */
  type VId = nat
  type MId = nat

  /** The mutable fields of one `Vertex`: its coordinate, whether it is a
      ghost midpoint, the neighbouring real vertices and the flanking
      ghosts. Its marker handle never changes and is kept in `markerOf`;
      the owner back-reference is left implicit: there is one owner. */
  datatype Vertex = Vertex(
    point: Pos,
    isGhost: bool,
    prev: Option<VId>,
    next: Option<VId>,
    middleLeft: Option<VId>,
    middleRight: Option<VId>)

  /** The fields of the drag listener, which persist between gestures. */
  datatype Drag = Drag(activeVertex: Option<VId>, activeIndex: int)

  datatype Editor = Editor(
    arena: seq<Vertex>,
    markerOf: seq<MId>,
    vertices: seq<VId>,
    markers: seq<MId>,
    positions: seq<Pos>,
    overlay: set<MId>,
    selected: int,
    lastAdded: Option<VId>,
    drag: Drag,
    nextMarker: MId)

  /** A gesture or drag listener's verdict (whether it consumed the event)
      and the state it leaves. */
  datatype Handled = Handled(consumed: bool, editor: Editor)

  /** The state of a freshly constructed `Builder` whose owner holds
      `positions`: no vertices, no markers, nothing selected. */
  function Initial(positions: seq<Pos>): (e: Editor)
    ensures Valid(e) && RealCount(e) == 0
    ensures e.selected == -1 && e.vertices == [] && e.overlay == {} && e.positions == positions
  {
    Editor([], [], [], [], positions, {}, -1, None, Drag(None, 0), 0)
  }

  /** Index alignment: `markers[k]` is the marker of `vertices[k]`; neither
      collection holds an element twice; the overlay only shows registered
      markers; `selected` is -1 or an index of both collections. Stated over
      the fields it reads, so that writes to vertex objects leave it intact. */
  ghost predicate Aligned(arenaSize: nat, markerOf: seq<MId>, vertices: seq<VId>, markers: seq<MId>,
                          overlay: set<MId>, selected: int, nextMarker: MId) {
    && |markerOf| == arenaSize
    && |vertices| == |markers|
    && (forall k | 0 <= k < |vertices| :: vertices[k] < arenaSize && markerOf[vertices[k]] == markers[k])
    && Distinct(vertices) && Distinct(markers)
    && (forall k | 0 <= k < |markers| :: markers[k] < nextMarker)
    && (forall m | m in overlay :: m in markers)
    && -1 <= selected < |vertices|
  }

  predicate Refers(n: nat, o: Option<VId>) {
    o.Some? ==> o.value < n
  }

  predicate LinksIn(n: nat, v: Vertex) {
    Refers(n, v.prev) && Refers(n, v.next) && Refers(n, v.middleLeft) && Refers(n, v.middleRight)
  }

  /** Every link of every vertex object names an existing vertex object. */
  ghost predicate Closed(a: seq<Vertex>) {
    forall id {:trigger LinksIn(|a|, a[id])} | 0 <= id < |a| :: LinksIn(|a|, a[id])
  }

  /** The links of one vertex object of a closed arena are in range. */
  lemma LinksOf(a: seq<Vertex>, id: VId)
    requires Closed(a) && id < |a|
    ensures LinksIn(|a|, a[id])
  {
  }

  lemma ClosedSet(a: seq<Vertex>, id: VId, v: Vertex)
    requires Closed(a) && id < |a| && LinksIn(|a|, v)
    ensures Closed(a[id := v])
  {
  }

  lemma ClosedAppend(a: seq<Vertex>, v: Vertex)
    requires Closed(a) && LinksIn(|a| + 1, v)
    ensures Closed(a + [v])
  {
    var b := a + [v];
    forall x | 0 <= x < |b|
      ensures LinksIn(|b|, b[x])
    {
      if x < |a| {
        LinksOf(a, x);
        assert b[x] == a[x];
      }
    }
  }

  /** The state invariant of the editor. */
  ghost predicate Valid(e: Editor) {
    && Aligned(|e.arena|, e.markerOf, e.vertices, e.markers, e.overlay, e.selected, e.nextMarker)
    && Closed(e.arena)
    && Refers(|e.arena|, e.lastAdded)
    && Refers(|e.arena|, e.drag.activeVertex)
  }

  /** The vertex object `id`. Links in the source are object references and
      always name an existing object; reading through a total lookup spares
      the model that bookkeeping. */
  function Get(e: Editor, id: VId): Vertex {
    if id < |e.arena| then e.arena[id] else Vertex(Pos(0.0, 0.0), false, None, None, None, None)
  }

  function Point(e: Editor, id: VId): Pos {
    Get(e, id).point
  }

  /** The marker handle of vertex object `id` (`vertex.getMarker()`). */
  function MarkerOf(e: Editor, id: VId): MId {
    if id < |e.markerOf| then e.markerOf[id] else 0
  }

  /** Whether `id` names a real (non-ghost) vertex object of `a`. */
  predicate IsReal(a: seq<Vertex>, id: VId) {
    id < |a| && !a[id].isGhost
  }

  /** The number of real vertex objects among `vs`. */
  ghost function Reals(vs: seq<VId>, a: seq<Vertex>): nat {
    if |vs| == 0 then 0
    else Reals(vs[..|vs| - 1], a) + (if IsReal(a, vs[|vs| - 1]) then 1 else 0)
  }

  /** The number of real vertices the editor lists. */
  ghost function RealCount(e: Editor): nat {
    Reals(e.vertices, e.arena)
  }

  /** Counting real vertices looks only at the ghost flags of the listed ids. */
  lemma {:induction false} RealsSameFlags(vs: seq<VId>, a: seq<Vertex>, b: seq<Vertex>)
    requires forall k | 0 <= k < |vs| :: IsReal(a, vs[k]) == IsReal(b, vs[k])
    ensures Reals(vs, a) == Reals(vs, b)
  {
    if |vs| > 0 {
      RealsSameFlags(vs[..|vs| - 1], a, b);
    }
  }

  /** Turning one listed ghost into a real vertex adds exactly one real vertex. */
  lemma {:induction false} RealsPromote(vs: seq<VId>, a: seq<Vertex>, g: VId, v: Vertex)
    requires Distinct(vs)
    requires g in vs && g < |a| && a[g].isGhost && !v.isGhost
    ensures Reals(vs, a[g := v]) == Reals(vs, a) + 1
  {
    var init := vs[..|vs| - 1];
    if vs[|vs| - 1] == g {
      RealsSameFlags(init, a, a[g := v]);
    } else {
      assert g in init by {
        var k :| 0 <= k < |vs| && vs[k] == g;
        assert init[k] == g;
      }
      RealsPromote(init, a, g, v);
    }
  }

  /** Removing the element at `i` takes its contribution out of the count. */
  lemma {:induction false} RealsRemove(vs: seq<VId>, a: seq<Vertex>, i: nat)
    requires i < |vs|
    ensures Reals(vs[..i] + vs[i + 1..], a) + (if IsReal(a, vs[i]) then 1 else 0) == Reals(vs, a)
  {
    var r := vs[..i] + vs[i + 1..];
    var init := vs[..|vs| - 1];
    if i < |vs| - 1 {
      var rInit := init[..i] + init[i + 1..];
      RealsRemove(init, a, i);
      assert r == rInit + [vs[|vs| - 1]];
      assert r[..|r| - 1] == rInit;
    } else {
      assert r == init;
    }
  }

  lemma RealsAppend(vs: seq<VId>, a: seq<Vertex>, x: VId)
    ensures Reals(vs + [x], a) == Reals(vs, a) + (if IsReal(a, x) then 1 else 0)
  {
  }

  /** Two records agree on everything except possibly their `prev`/`next` links. */
  predicate SameButChain(v: Vertex, w: Vertex) {
    v.point == w.point && v.isGhost == w.isGhost && v.middleLeft == w.middleLeft && v.middleRight == w.middleRight
  }

  /** Two records agree on everything except possibly their ghost links. */
  predicate SameButMiddles(v: Vertex, w: Vertex) {
    v.point == w.point && v.isGhost == w.isGhost && v.prev == w.prev && v.next == w.next
  }

  /** Overwrites the fields of the vertex object `id` (the setters of
      `Vertex`); no other object and no other field of the editor changes. */
  function Put(e: Editor, id: VId, v: Vertex): (r: Editor)
    requires id < |e.arena|
    ensures r == e.(arena := r.arena) && |r.arena| == |e.arena|
    ensures Get(r, id) == v
    ensures forall x: VId | x != id :: Get(r, x) == Get(e, x)
  {
    e.(arena := e.arena[id := v])
  }

  /** A write of in-range links keeps the invariant; the count of real
      vertices moves only with the ghost flag of a listed object. */
  lemma PutValid(e: Editor, id: VId, v: Vertex)
    requires Valid(e) && id < |e.arena| && LinksIn(|e.arena|, v)
    ensures Valid(Put(e, id, v))
    ensures v.isGhost == e.arena[id].isGhost ==> RealCount(Put(e, id, v)) == RealCount(e)
    ensures e.arena[id].isGhost && !v.isGhost && id in e.vertices ==>
      RealCount(Put(e, id, v)) == RealCount(e) + 1
  {
    var r := Put(e, id, v);
    ClosedSet(e.arena, id, v);
    if v.isGhost == e.arena[id].isGhost {
      assert forall k | 0 <= k < |e.vertices| :: IsReal(e.arena, e.vertices[k]) == IsReal(r.arena, e.vertices[k]);
      RealsSameFlags(e.vertices, e.arena, r.arena);
    } else if e.arena[id].isGhost && id in e.vertices {
      RealsPromote(e.vertices, e.arena, id, v);
    }
  }

  /** `new Vertex(owner, createMarker(p, image))` followed by
      `vertices.add(vertex)`: a fresh vertex object with a fresh marker,
      appended to both parallel collections, its marker added to the
      overlay. */
  function Alloc(e: Editor, p: Pos, isGhost: bool): (r: Editor)
    ensures |r.arena| == |e.arena| + 1 && |r.vertices| == |e.vertices| + 1 && |r.markers| == |e.markers| + 1
    ensures r.vertices[|e.vertices|] == |e.arena| && r.markers[|e.markers|] == e.nextMarker
    ensures r.overlay == e.overlay + {e.nextMarker}
    ensures Get(r, |e.arena|) == Vertex(p, isGhost, None, None, None, None)
    ensures forall x: VId | x < |e.arena| :: Get(r, x) == Get(e, x)
  {
    e.(arena := e.arena + [Vertex(p, isGhost, None, None, None, None)],
       markerOf := e.markerOf + [e.nextMarker],
       vertices := e.vertices + [|e.arena|],
       markers := e.markers + [e.nextMarker],
       overlay := e.overlay + {e.nextMarker},
       nextMarker := e.nextMarker + 1)
  }

  /** Allocation keeps the invariant, hands out an id and a marker nobody
      holds yet, and counts one more real vertex exactly when it is real. */
  lemma AllocValid(e: Editor, p: Pos, isGhost: bool)
    requires Valid(e)
    ensures Valid(Alloc(e, p, isGhost))
    ensures |e.arena| !in e.vertices && e.nextMarker !in e.markers
    ensures RealCount(Alloc(e, p, isGhost)) == RealCount(e) + (if isGhost then 0 else 1)
  {
    var r := Alloc(e, p, isGhost);
    ClosedAppend(e.arena, Vertex(p, isGhost, None, None, None, None));
    assert forall k | 0 <= k < |e.vertices| :: IsReal(e.arena, e.vertices[k]) == IsReal(r.arena, e.vertices[k]);
    RealsSameFlags(e.vertices, e.arena, r.arena);
    RealsAppend(e.vertices, r.arena, |e.arena|);
  }

  /** `id.setNext(n)` when `id` is present. */
  function SetNext(e: Editor, id: Option<VId>, n: Option<VId>): (r: Editor)
    requires Refers(|e.arena|, id)
    ensures r == e.(arena := r.arena) && |r.arena| == |e.arena|
    ensures forall x: VId :: Get(r, x) == if id == Some(x) then Get(e, x).(next := n) else Get(e, x)
  {
    if id.Some? then Put(e, id.value, Get(e, id.value).(next := n)) else e
  }

  /** `id.setPrev(p)` when `id` is present. */
  function SetPrev(e: Editor, id: Option<VId>, p: Option<VId>): (r: Editor)
    requires Refers(|e.arena|, id)
    ensures r == e.(arena := r.arena) && |r.arena| == |e.arena|
    ensures forall x: VId :: Get(r, x) == if id == Some(x) then Get(e, x).(prev := p) else Get(e, x)
  {
    if id.Some? then Put(e, id.value, Get(e, id.value).(prev := p)) else e
  }

  /** `updatePrevNext(left, right)`: `left.next := right` when `left` is
      present, then `right.prev := left` when `right` is present. Only those
      two links change. */
  function UpdatePrevNext(e: Editor, left: Option<VId>, right: Option<VId>): (r: Editor)
    requires Refers(|e.arena|, left) && Refers(|e.arena|, right)
    ensures r == e.(arena := r.arena) && |r.arena| == |e.arena|
    ensures left.Some? ==> Get(r, left.value).next == right
    ensures right.Some? ==> Get(r, right.value).prev == left
    ensures left.Some? && left != right ==> Get(r, left.value).prev == Get(e, left.value).prev
    ensures right.Some? && left != right ==> Get(r, right.value).next == Get(e, right.value).next
    ensures forall x: VId :: SameButChain(Get(r, x), Get(e, x))
    ensures forall x: VId | Some(x) != left && Some(x) != right :: Get(r, x) == Get(e, x)
  {
    SetPrev(SetNext(e, left, right), right, left)
  }

  /** Relinking keeps the invariant and the count of real vertices. */
  lemma UpdatePrevNextValid(e: Editor, left: Option<VId>, right: Option<VId>)
    requires Valid(e) && Refers(|e.arena|, left) && Refers(|e.arena|, right)
    ensures Valid(UpdatePrevNext(e, left, right))
    ensures RealCount(UpdatePrevNext(e, left, right)) == RealCount(e)
  {
    var e1 := SetNext(e, left, right);
    if left.Some? {
      LinksOf(e.arena, left.value);
      PutValid(e, left.value, e.arena[left.value].(next := right));
    }
    if right.Some? {
      LinksOf(e1.arena, right.value);
      PutValid(e1, right.value, e1.arena[right.value].(prev := left));
    }
  }

  /** The ghost `createMiddleMarker` creates between two present ends: one
      fresh ghost at the midpoint of the ends, appended to both collections
      and the overlay, becomes `left.middleRight` and `right.middleLeft`.
      Nothing else about the existing objects changes. `Vertex` is not part
      of this model; its setters are taken to record the edge on the ghost:
      `left.setMiddleRight(ghost)` makes `left` the ghost's `prev` and
      `right.setMiddleLeft(ghost)` makes `right` its `next`, the links that
      promotion reads. */
  function Middle(e: Editor, left: VId, right: VId): (r: Editor)
    requires left < |e.arena| && right < |e.arena|
    ensures r == e.(arena := r.arena, markerOf := e.markerOf + [e.nextMarker],
                    vertices := e.vertices + [|e.arena|], markers := e.markers + [e.nextMarker],
                    overlay := e.overlay + {e.nextMarker}, nextMarker := e.nextMarker + 1)
    ensures |r.arena| == |e.arena| + 1
    ensures Get(r, |e.arena|) == Vertex(Mid(Point(e, left), Point(e, right)), true, Some(left), Some(right), None, None)
    ensures Get(r, left).middleRight == Some(|e.arena|)
    ensures Get(r, right).middleLeft == Some(|e.arena|)
    ensures left != right ==> Get(r, left).middleLeft == Get(e, left).middleLeft
    ensures left != right ==> Get(r, right).middleRight == Get(e, right).middleRight
    ensures forall x: VId | x < |e.arena| :: SameButMiddles(Get(r, x), Get(e, x))
    ensures forall x: VId | x < |e.arena| && x != left && x != right :: Get(r, x) == Get(e, x)
  {
    var g := |e.arena|;
    var e1 := Alloc(e, Mid(Point(e, left), Point(e, right)), true);
    var e2 := Put(e1, g, Get(e1, g).(prev := Some(left), next := Some(right)));
    var e3 := Put(e2, left, Get(e2, left).(middleRight := Some(g)));
    Put(e3, right, Get(e3, right).(middleLeft := Some(g)))
  }

  /** Creating a midpoint ghost keeps the invariant and the count of real
      vertices. */
  lemma MiddleValid(e: Editor, left: VId, right: VId)
    requires Valid(e) && left < |e.arena| && right < |e.arena|
    ensures Valid(Middle(e, left, right)) && RealCount(Middle(e, left, right)) == RealCount(e)
  {
    var g := |e.arena|;
    var e1 := Alloc(e, Mid(Point(e, left), Point(e, right)), true);
    AllocValid(e, Mid(Point(e, left), Point(e, right)), true);
    PutValid(e1, g, Get(e1, g).(prev := Some(left), next := Some(right)));
    var e2 := Put(e1, g, Get(e1, g).(prev := Some(left), next := Some(right)));
    LinksOf(e2.arena, left);
    PutValid(e2, left, e2.arena[left].(middleRight := Some(g)));
    var e3 := Put(e2, left, Get(e2, left).(middleRight := Some(g)));
    LinksOf(e3.arena, right);
    PutValid(e3, right, e3.arena[right].(middleLeft := Some(g)));
  }

  /** `createMiddleMarker(left, right)`: nothing when either end is absent
      (an open path's end), otherwise the midpoint ghost of `Middle`. */
  function CreateMiddleMarker(e: Editor, left: Option<VId>, right: Option<VId>): (r: Editor)
    requires Refers(|e.arena|, left) && Refers(|e.arena|, right)
    ensures left.None? || right.None? ==> r == e
    ensures left.Some? && right.Some? ==> r == Middle(e, left.value, right.value)
  {
    if left.None? || right.None? then e else Middle(e, left.value, right.value)
  }

  lemma CreateMiddleMarkerValid(e: Editor, left: Option<VId>, right: Option<VId>)
    requires Valid(e) && Refers(|e.arena|, left) && Refers(|e.arena|, right)
    ensures Valid(CreateMiddleMarker(e, left, right))
    ensures RealCount(CreateMiddleMarker(e, left, right)) == RealCount(e)
  {
    if left.Some? && right.Some? {
      MiddleValid(e, left.value, right.value);
    }
  }
}

=== FILE: rings.dfy ===
/**
 `initMarkers`: one real vertex per position of the owner's list, then the
 list closed into a ring, one ghost midpoint per edge, including the edge
 from the last position back to the first.
 */
module Rings {
  import opened Geometry
  import opened Graph

  /** The ring successor and predecessor of index `i` among `n` indices,
      written without `%`. */
  function Succ(i: nat, n: nat): (s: nat)
    requires i < n
    ensures s < n
  {
    if i + 1 == n then 0 else i + 1
  }

  function Pred(i: nat, n: nat): (p: nat)
    requires i < n
    ensures p < n
  {
    if i == 0 then n - 1 else i - 1
  }

  /** Real vertex `i` of the ring `initMarkers` builds over the points `ps`
      from arena id `base` on: it stands at `ps[i]`, links to its ring
      neighbours and to the ghosts of its two edges. */
  function RingReal(base: nat, ps: seq<Pos>, i: nat): Vertex
    requires i < |ps|
  {
    Vertex(ps[i], false, Some(base + Pred(i, |ps|)), Some(base + Succ(i, |ps|)),
           Some(base + |ps| + i), Some(base + |ps| + Succ(i, |ps|)))
  }

  /** Ghost `i` of that ring sits at the midpoint of the edge that ends at
      `ps[i]`, and records the edge's two ends. */
  function RingGhost(base: nat, ps: seq<Pos>, i: nat): Vertex
    requires i < |ps|
  {
    Vertex(Mid(ps[Pred(i, |ps|)], ps[i]), true, Some(base + Pred(i, |ps|)), Some(base + i), None, None)
  }

  /** The `n` consecutive ids from `base` on, in order. */
  function Ids(base: nat, n: nat): (r: seq<VId>)
    ensures |r| == n && forall k | 0 <= k < n :: r[k] == base + k
  {
    seq(n, k => base + k)
  }

  /** One more id extends the run at its end. */
  lemma IdsSnoc(base: nat, n: nat)
    ensures Ids(base, n) + [base + n] == Ids(base, n + 1)
  {
  }

  /** The `n` consecutive marker handles from `m` on, as a set: the
      markers a run of `createMarker` calls shows. */
  function Shown(m: MId, n: nat): set<MId> {
    if n == 0 then {} else Shown(m, n - 1) + {m + n - 1}
  }

  /** One more marker extends the run at its end. */
  lemma ShownSnoc(m: MId, n: nat)
    ensures Shown(m, n) + {m + n} == Shown(m, n + 1)
  {
  }

  /** The run holds exactly the handles from `m` up to, not including,
      `m + n`. */
  lemma {:induction false} ShownRange(m: MId, n: nat, k: MId)
    ensures k in Shown(m, n) <==> m <= k < m + n
  {
    if n > 0 {
      ShownRange(m, n - 1, k);
    }
  }

  /** The ring over `ps` occupies ids `base .. base + 2 * |ps|`: the real
      vertices first, then one ghost per edge. */
  ghost predicate Ring(e: Editor, base: nat, ps: seq<Pos>) {
    && |e.arena| >= base + 2 * |ps|
    && (forall id: VId | base <= id < base + |ps| :: Get(e, id) == RingReal(base, ps, id - base))
    && (forall id: VId | base + |ps| <= id < base + 2 * |ps| :: Get(e, id) == RingGhost(base, ps, id - base - |ps|))
  }

  /** The state after the first loop has created `i` real vertices. */
  ghost predicate Laid(e: Editor, c: Editor, i: nat) {
    && c == e.(arena := c.arena, markerOf := c.markerOf, vertices := c.vertices, markers := c.markers,
               overlay := c.overlay, nextMarker := c.nextMarker)
    && |c.arena| == |e.arena| + i
    && c.vertices == e.vertices + Ids(|e.arena|, i)
    && c.nextMarker == e.nextMarker + i && c.overlay == e.overlay + Shown(e.nextMarker, i)
    && (forall x: VId | x < |e.arena| :: Get(c, x) == Get(e, x))
    && (forall id: VId | |e.arena| <= id < |e.arena| + i && id - |e.arena| < |e.positions| ::
          Get(c, id) == Vertex(e.positions[id - |e.arena|], false, None, None, None, None))
  }

  /** What one iteration of the second loop does to the state `e` with
      result `r`: a ghost at the edge's midpoint is appended, `left` and
      `right` link to each other and to it, and nothing else changes. */
  ghost predicate Stitches(e: Editor, r: Editor, left: VId, right: VId) {
    && r == e.(arena := r.arena, markerOf := r.markerOf, vertices := r.vertices, markers := r.markers,
               overlay := r.overlay, nextMarker := r.nextMarker)
    && |r.arena| == |e.arena| + 1 && r.vertices == e.vertices + [|e.arena|]
    && r.nextMarker == e.nextMarker + 1 && r.overlay == e.overlay + {e.nextMarker}
    && Get(r, |e.arena|) == Vertex(Mid(Point(e, left), Point(e, right)), true, Some(left), Some(right), None, None)
    && Get(r, left).next == Some(right) && Get(r, left).middleRight == Some(|e.arena|)
    && Get(r, right).prev == Some(left) && Get(r, right).middleLeft == Some(|e.arena|)
    && (left != right ==> Get(r, left).prev == Get(e, left).prev && Get(r, left).middleLeft == Get(e, left).middleLeft)
    && (left != right ==> Get(r, right).next == Get(e, right).next && Get(r, right).middleRight == Get(e, right).middleRight)
    && (forall x: VId | x < |e.arena| :: Get(r, x).point == Get(e, x).point && Get(r, x).isGhost == Get(e, x).isGhost)
    && (forall x: VId | x < |e.arena| && x != left && x != right :: Get(r, x) == Get(e, x))
  }

  /** One iteration of the first loop lays the next real vertex. */
  lemma LaidStep(e: Editor, c: Editor, i: nat)
    requires Laid(e, c, i) && i < |e.positions|
    ensures Laid(e, Alloc(c, e.positions[i], false), i + 1)
  {
    ShownSnoc(e.nextMarker, i);
  }

  /** The state after the first loop has laid `i` vertices, with the
      invariant kept and each of them counted. */
  ghost predicate Laying(e: Editor, c: Editor, i: nat) {
    Valid(c) && RealCount(c) == RealCount(e) + i && Laid(e, c, i)
  }

  /** Before the first loop nothing is laid. */
  lemma LayStart(e: Editor)
    requires Valid(e)
    ensures Laying(e, e, 0)
  {
    assert Shown(e.nextMarker, 0) == {};
  }

  /** One iteration of the first loop keeps the invariant and counts the
      vertex it lays. */
  lemma LayStep(e: Editor, c: Editor, i: nat)
    requires Laying(e, c, i) && i < |e.positions|
    ensures Laying(e, Alloc(c, e.positions[i], false), i + 1)
  {
    AllocValid(c, e.positions[i], false);
    LaidStep(e, c, i);
  }

  /** When the first loop ends, the second starts with no edge done. */
  lemma LaidStitched(e: Editor, c: Editor)
    requires Laid(e, c, |e.positions|)
    ensures Stitched(e, c, 0)
  {
  }

  /** One iteration of the second loop: `createMiddleMarker(left, right)`
      then `updatePrevNext(left, right)`. */
  function Stitch(e: Editor, left: VId, right: VId): (r: Editor)
    requires left < |e.arena| && right < |e.arena|
    ensures Stitches(e, r, left, right)
  {
    var e1 := CreateMiddleMarker(e, Some(left), Some(right));
    UpdatePrevNext(e1, Some(left), Some(right))
  }

  lemma StitchValid(e: Editor, left: VId, right: VId)
    requires Valid(e) && left < |e.arena| && right < |e.arena|
    ensures Valid(Stitch(e, left, right)) && RealCount(Stitch(e, left, right)) == RealCount(e)
  {
    CreateMiddleMarkerValid(e, Some(left), Some(right));
    UpdatePrevNextValid(CreateMiddleMarker(e, Some(left), Some(right)), Some(left), Some(right));
  }

  /** Real vertex `base + k` stands at `ps[k]`. */
  ghost predicate RealAt(c: Editor, base: nat, ps: seq<Pos>, k: nat)
    requires k < |ps|
  {
    Get(c, base + k).point == ps[k] && !Get(c, base + k).isGhost
  }

  /** Edge `k` of the ring, from vertex `Pred(k)` to vertex `k`, is in
      place: its ghost exists at the edge's midpoint and both ends link to
      each other and to it. */
  ghost predicate EdgeDone(c: Editor, base: nat, ps: seq<Pos>, k: nat)
    requires k < |ps|
  {
    && Get(c, base + |ps| + k) == RingGhost(base, ps, k)
    && Get(c, base + k).prev == Some(base + Pred(k, |ps|))
    && Get(c, base + k).middleLeft == Some(base + |ps| + k)
    && Get(c, base + Pred(k, |ps|)).next == Some(base + k)
    && Get(c, base + Pred(k, |ps|)).middleRight == Some(base + |ps| + k)
  }

  /** The state after the second loop has run `i` iterations over the
      real vertices created by the first, which start at the arena size of
      `e`, the state before `initMarkers`. */
  ghost predicate Stitched(e: Editor, c: Editor, i: nat) {
    && i <= |e.positions|
    && c == e.(arena := c.arena, markerOf := c.markerOf, vertices := c.vertices, markers := c.markers,
               overlay := c.overlay, nextMarker := c.nextMarker)
    && |c.arena| == |e.arena| + |e.positions| + i
    && c.vertices == e.vertices + Ids(|e.arena|, |e.positions| + i)
    && c.nextMarker == e.nextMarker + |e.positions| + i
    && c.overlay == e.overlay + Shown(e.nextMarker, |e.positions| + i)
    && (forall x: VId | x < |e.arena| :: Get(c, x) == Get(e, x))
    && (forall k | 0 <= k < |e.positions| :: RealAt(c, |e.arena|, e.positions, k))
    && (forall k | 0 <= k < i :: EdgeDone(c, |e.arena|, e.positions, k))
  }

  /** An iteration over edge `i` keeps another edge `k`: it writes only
      fields of vertices `i` and `Pred(i)` that edge `k` does not use. */
  lemma EdgeKept(c: Editor, r: Editor, base: nat, ps: seq<Pos>, i: nat, k: nat)
    requires i < |ps| && k < |ps| && k != i && base + |ps| <= |c.arena|
    requires Stitches(c, r, base + Pred(i, |ps|), base + i)
    requires EdgeDone(c, base, ps, k)
    ensures EdgeDone(r, base, ps, k)
  {
  }

  /** An iteration over edge `i` with the ghost created at id
      `base + |ps| + i` puts that edge in place. */
  lemma EdgeMade(c: Editor, r: Editor, base: nat, ps: seq<Pos>, i: nat)
    requires i < |ps| && |c.arena| == base + |ps| + i
    requires Stitches(c, r, base + Pred(i, |ps|), base + i)
    requires RealAt(c, base, ps, Pred(i, |ps|)) && RealAt(c, base, ps, i)
    ensures EdgeDone(r, base, ps, i)
  {
  }

  /** One iteration of the second loop puts edge `i` in place and keeps
      everything established before. */
  lemma StitchStep(e: Editor, c: Editor, r: Editor, i: nat, j: nat)
    requires Stitched(e, c, i) && i < |e.positions| && j == Pred(i, |e.positions|)
    requires Stitches(c, r, |e.arena| + j, |e.arena| + i)
    ensures Stitched(e, r, i + 1)
  {
    IdsSnoc(|e.arena|, |e.positions| + i);
    ShownSnoc(e.nextMarker, |e.positions| + i);
    StitchKeepsReals(e, c, r, i, j);
    StitchEdges(e, c, r, i, j);
  }

  /** An iteration moves no real vertex and keeps it real. */
  lemma StitchKeepsReals(e: Editor, c: Editor, r: Editor, i: nat, j: nat)
    requires Stitched(e, c, i) && i < |e.positions| && j == Pred(i, |e.positions|)
    requires Stitches(c, r, |e.arena| + j, |e.arena| + i)
    ensures forall k | 0 <= k < |e.positions| :: RealAt(r, |e.arena|, e.positions, k)
  {
    forall k | 0 <= k < |e.positions|
      ensures RealAt(r, |e.arena|, e.positions, k)
    {
      assert RealAt(c, |e.arena|, e.positions, k);
    }
  }

  /** After an iteration over edge `i`, edges `0 .. i` are in place. */
  lemma StitchEdges(e: Editor, c: Editor, r: Editor, i: nat, j: nat)
    requires Stitched(e, c, i) && i < |e.positions| && j == Pred(i, |e.positions|)
    requires Stitches(c, r, |e.arena| + j, |e.arena| + i)
    ensures forall k | 0 <= k < i + 1 :: EdgeDone(r, |e.arena|, e.positions, k)
  {
    forall k | 0 <= k < i + 1
      ensures EdgeDone(r, |e.arena|, e.positions, k)
    {
      if k < i {
        assert EdgeDone(c, |e.arena|, e.positions, k);
        EdgeKept(c, r, |e.arena|, e.positions, i, k);
      } else {
        assert RealAt(c, |e.arena|, e.positions, Pred(i, |e.positions|));
        assert RealAt(c, |e.arena|, e.positions, i);
        EdgeMade(c, r, |e.arena|, e.positions, i);
      }
    }
  }

  /** After all iterations real vertex `i` has all its fields in place:
      its own edge gives its `prev` and `middleLeft`, the edge of its
      successor its `next` and `middleRight`. */
  lemma StitchedVertex(e: Editor, c: Editor, i: nat)
    requires Stitched(e, c, |e.positions|) && i < |e.positions|
    ensures Get(c, |e.arena| + i) == RingReal(|e.arena|, e.positions, i)
  {
    var s := Succ(i, |e.positions|);
    assert Pred(s, |e.positions|) == i;
    assert RealAt(c, |e.arena|, e.positions, i);
    assert EdgeDone(c, |e.arena|, e.positions, i);
    assert EdgeDone(c, |e.arena|, e.positions, s);
  }

  lemma StitchedRing(e: Editor, c: Editor)
    requires Stitched(e, c, |e.positions|)
    ensures Ring(c, |e.arena|, e.positions)
  {
    var base, n := |e.arena|, |e.positions|;
    forall id: VId | base <= id < base + n
      ensures Get(c, id) == RingReal(base, e.positions, id - base)
    {
      StitchedVertex(e, c, id - base);
    }
    forall id: VId | base + n <= id < base + 2 * n
      ensures Get(c, id) == RingGhost(base, e.positions, id - base - n)
    {
      assert EdgeDone(c, base, e.positions, id - base - n);
    }
  }

  /** After the second loop the ring is in place over `2 * |ps|` fresh
      ids and markers, all listed and shown, and nothing else changed. */
  lemma StitchedDone(e: Editor, c: Editor)
    requires Stitched(e, c, |e.positions|)
    ensures Ring(c, |e.arena|, e.positions)
    ensures c.positions == e.positions && c.selected == e.selected && c.lastAdded == e.lastAdded && c.drag == e.drag
    ensures c.vertices == e.vertices + Ids(|e.arena|, 2 * |e.positions|)
    ensures c.overlay == e.overlay + Shown(e.nextMarker, 2 * |e.positions|)
    ensures c.nextMarker == e.nextMarker + 2 * |e.positions|
    ensures forall x: VId | x < |e.arena| :: Get(c, x) == Get(e, x)
  {
    StitchedRing(e, c);
    assert |e.positions| + |e.positions| == 2 * |e.positions|;
  }

  /** The first loop of `initMarkers`: one real vertex, with its marker
      shown, for each position of the owner's list, all appended to the
      vertex list. */
  method LayVertices(e: Editor) returns (r: Editor)
    requires Valid(e)
    ensures Valid(r) && RealCount(r) == RealCount(e) + |e.positions|
    ensures Laid(e, r, |e.positions|)
  {
    LayStart(e);
    r := LayFrom(e, e, 0);
  }

  /** The iterations of the first loop from index `i` on, one per
      remaining position. */
  method LayFrom(e: Editor, c: Editor, i: nat) returns (r: Editor)
    requires i <= |e.positions| && Laying(e, c, i)
    ensures Laying(e, r, |e.positions|)
    decreases |e.positions| - i
  {
    if i == |e.positions| {
      r := c;
    } else {
      LayStep(e, c, i);
      r := LayFrom(e, Alloc(c, e.positions[i], false), i + 1);
    }
  }

  /** One iteration of the second loop of `initMarkers`, over the edge
      from new vertex `j` to new vertex `i`. */
  method StitchEdge(e: Editor, c: Editor, i: nat, j: nat) returns (r: Editor)
    requires Valid(c) && Stitched(e, c, i) && i < |e.positions| && j == Pred(i, |e.positions|)
    ensures Valid(r) && RealCount(r) == RealCount(c)
    ensures Stitched(e, r, i + 1)
  {
    StitchValid(c, |e.arena| + j, |e.arena| + i);
    r := Stitch(c, |e.arena| + j, |e.arena| + i);
    StitchStep(e, c, r, i, j);
  }

  /** The second loop of `initMarkers`: for each index `i`, with `j` the
      index before it (the last one for `i = 0`), the middle marker of the
      edge from vertex `j` to vertex `i` and the links between them. */
  method CloseRing(e: Editor, c: Editor) returns (r: Editor)
    requires Valid(c) && Stitched(e, c, 0)
    ensures Valid(r) && RealCount(r) == RealCount(c)
    ensures Stitched(e, r, |e.positions|)
  {
    var n := |e.positions|;
    r := c;
    var i := 0;
    var j := n - 1;
    while i < n
      invariant 0 <= i <= n
      invariant i < n ==> j == Pred(i, n)
      invariant Valid(r) && RealCount(r) == RealCount(c)
      invariant Stitched(e, r, i)
    {
      r := StitchEdge(e, r, i, j);
      j, i := i, i + 1;
    }
  }

  /** `initMarkers(builder)`: a real vertex for each position of the
      owner's list, closed into a ring with one ghost per edge, including
      the edge from the last position back to the first. The source reads
      the new vertices by position index, so it needs the owner to admit
      every position; a rejected one leaves the list of new vertices short
      and makes the second loop throw. */
  method InitMarkers(e: Editor, accepts: Pos -> bool) returns (r: Editor)
    requires Valid(e)
    requires forall i | 0 <= i < |e.positions| :: accepts(e.positions[i])
    ensures Valid(r) && RealCount(r) == RealCount(e) + |e.positions|
    ensures Ring(r, |e.arena|, e.positions)
    ensures r.positions == e.positions && r.selected == e.selected && r.lastAdded == e.lastAdded && r.drag == e.drag
    ensures r.vertices == e.vertices + Ids(|e.arena|, 2 * |e.positions|)
    ensures r.overlay == e.overlay + Shown(e.nextMarker, 2 * |e.positions|)
    ensures r.nextMarker == e.nextMarker + 2 * |e.positions|
    ensures forall x: VId | x < |e.arena| :: Get(r, x) == Get(e, x)
  {
    var c := LayVertices(e);
    LaidStitched(e, c);
    r := CloseRing(e, c);
    StitchedDone(e, r);
  }

  /** The vertex reached from `id` by following `next` links `k` times,
      or `None` when a link is missing on the way. */
  function Walk(e: Editor, id: VId, k: nat): Option<VId>
    decreases k
  {
    if k == 0 then Some(id)
    else match Get(e, id).next {
      case None => None
      case Some(n) => Walk(e, n, k - 1)
    }
  }

  /** The index `k` steps after `i` in a ring of `n` indices, counted one
      step at a time. */
  function Advance(i: nat, k: nat, n: nat): (a: nat)
    requires i < n
    ensures a < n
    decreases k
  {
    if k == 0 then i else Advance(Succ(i, n), k - 1, n)
  }

  /** Before the end of the ring, stepping is plain addition. */
  lemma {:induction false} AdvanceWithin(i: nat, k: nat, n: nat)
    requires i + k < n
    ensures Advance(i, k, n) == i + k
    decreases k
  {
    if k > 0 {
      AdvanceWithin(i + 1, k - 1, n);
    }
  }

  /** `a + b` steps are `a` steps followed by `b` steps. */
  lemma {:induction false} AdvanceAdd(i: nat, a: nat, b: nat, n: nat)
    requires i < n
    ensures Advance(i, a + b, n) == Advance(Advance(i, a, n), b, n)
    decreases a
  {
    if a > 0 {
      AdvanceAdd(Succ(i, n), a - 1, b, n);
    }
  }

  /** `n` steps around a ring of `n` indices come back to the start. */
  lemma AdvanceRound(i: nat, n: nat)
    requires i < n
    ensures Advance(i, n, n) == i
  {
    AdvanceAdd(i, n - i, i, n);
    AdvanceAdd(i, n - i - 1, 1, n);
    AdvanceWithin(i, n - i - 1, n);
    AdvanceWithin(0, i, n);
  }

  /** Following `next` links through a ring never breaks: `k` steps from
      real vertex `i` reach real vertex `Advance(i, k)`. */
  lemma {:induction false} RingSteps(e: Editor, base: nat, ps: seq<Pos>, i: nat, k: nat)
    requires Ring(e, base, ps) && i < |ps|
    ensures Walk(e, base + i, k) == Some(base + Advance(i, k, |ps|))
    decreases k
  {
    if k > 0 {
      assert Get(e, base + i) == RingReal(base, ps, i);
      RingSteps(e, base, ps, Succ(i, |ps|), k - 1);
    }
  }

  /** Until the walk reaches the last position it visits the vertices in
      list order. */
  lemma RingForward(e: Editor, base: nat, ps: seq<Pos>, i: nat, k: nat)
    requires Ring(e, base, ps) && i + k < |ps|
    ensures Walk(e, base + i, k) == Some(base + i + k)
  {
    RingSteps(e, base, ps, i, k);
    AdvanceWithin(i, k, |ps|);
  }

  /** Going round the ring once returns to the start, so walks are
      periodic in the number of positions. */
  lemma RingCloses(e: Editor, base: nat, ps: seq<Pos>, i: nat, k: nat)
    requires Ring(e, base, ps) && i < |ps|
    ensures Walk(e, base + i, |ps|) == Some(base + i)
    ensures Walk(e, base + i, k + |ps|) == Walk(e, base + i, k)
  {
    RingSteps(e, base, ps, i, |ps|);
    RingSteps(e, base, ps, i, k + |ps|);
    RingSteps(e, base, ps, i, k);
    AdvanceRound(i, |ps|);
    AdvanceAdd(i, |ps|, k, |ps|);
    assert k + |ps| == |ps| + k;
  }

  /** In a ring, `prev` undoes `next` and the ghost to the right of a
      vertex is the ghost to the left of its successor. */
  lemma RingLinks(e: Editor, base: nat, ps: seq<Pos>, i: nat)
    requires Ring(e, base, ps) && i < |ps|
    ensures Get(e, base + i).next.Some? && Get(e, Get(e, base + i).next.value).prev == Some(base + i)
    ensures Get(e, Get(e, base + i).next.value).middleLeft == Get(e, base + i).middleRight
  {
  }
}

=== FILE: selection.dfy ===
/**
 Selection (`select`, `deselect`) and the promotion of a ghost midpoint to
 a real vertex that selecting a ghost triggers. Marker restyling is a
 rendering concern and is not modelled.
 */
module Selection {
  import opened Geometry
  import opened Graph

  /** `deselect()`: a no-op when nothing is selected, otherwise clears the
      selection; nothing else changes. */
  function Deselect(e: Editor): (r: Editor)
    requires -1 <= e.selected
    ensures r.selected == -1
    ensures e.selected < 0 ==> r == e
    ensures r.(selected := e.selected) == e
  {
    if e.selected < 0 then e else e.(selected := -1)
  }

  lemma DeselectValid(e: Editor)
    requires Valid(e)
    ensures Valid(Deselect(e)) && RealCount(Deselect(e)) == RealCount(e)
  {
  }

  /** The neighbour links of `g` do not point back at `g` itself. */
  predicate NoSelfLinks(v: Vertex, g: VId) {
    v.prev != Some(g) && v.next != Some(g)
  }

  /** The marker a ghost made on the link `o` is shown with: `m` for a
      present link, none for an absent one. */
  function ShownIf(o: Option<VId>, m: MId): set<MId> {
    if o.Some? then {m} else {}
  }

  /** 1 for a present link, 0 for an absent one. */
  function Count(o: Option<VId>): nat {
    if o.Some? then 1 else 0
  }

  /** What the two promotion steps need of the ghost `g`: it exists, its
      links name existing objects, and neither neighbour is `g` itself. */
  predicate Linkable(e: Editor, g: VId) {
    g < |e.arena| && LinksIn(|e.arena|, e.arena[g]) && NoSelfLinks(e.arena[g], g)
  }

  /** `setGhost(false)`, then `updatePrevNext(prev, vertex)` and
      `updatePrevNext(vertex, next)`: the ghost becomes a real vertex linked
      between its two neighbours, and no other object changes. */
  function Relink(e: Editor, g: VId): (r: Editor)
    requires Linkable(e, g)
    ensures r == e.(arena := r.arena) && |r.arena| == |e.arena|
    ensures var p := Get(e, g).prev;
      var n := Get(e, g).next;
      && Get(r, g) == Get(e, g).(isGhost := false)
      && (p.Some? && p != n ==> Get(r, p.value) == Get(e, p.value).(next := Some(g)))
      && (n.Some? && n != p ==> Get(r, n.value) == Get(e, n.value).(prev := Some(g)))
      && (n.Some? && n == p ==> Get(r, n.value) == Get(e, n.value).(next := Some(g), prev := Some(g)))
      && (forall x: VId | x != g && Some(x) != p && Some(x) != n :: Get(r, x) == Get(e, x))
  {
    var e1 := Put(e, g, Get(e, g).(isGhost := false));
    var e2 := UpdatePrevNext(e1, Get(e1, g).prev, Some(g));
    UpdatePrevNext(e2, Some(g), Get(e2, g).next)
  }

  /** Relinking keeps the invariant and counts one more real vertex. */
  lemma RelinkValid(e: Editor, g: VId)
    requires Valid(e) && Linkable(e, g) && g in e.vertices && e.arena[g].isGhost
    ensures Valid(Relink(e, g)) && RealCount(Relink(e, g)) == RealCount(e) + 1
  {
    PutValid(e, g, e.arena[g].(isGhost := false));
    var e1 := Put(e, g, Get(e, g).(isGhost := false));
    UpdatePrevNextValid(e1, Get(e1, g).prev, Some(g));
    var e2 := UpdatePrevNext(e1, Get(e1, g).prev, Some(g));
    UpdatePrevNextValid(e2, Some(g), Get(e2, g).next);
  }

  /** `createMiddleMarker(prev, vertex)`: a fresh ghost at the midpoint of
      the edge from the previous vertex, when there is one. */
  function FlankLeft(e: Editor, g: VId): (r: Editor)
    requires Linkable(e, g)
    ensures r == e.(arena := r.arena, markerOf := r.markerOf, vertices := r.vertices, markers := r.markers,
                    overlay := r.overlay, nextMarker := r.nextMarker)
    ensures |r.arena| == |e.arena| + Count(Get(e, g).prev)
    ensures |r.vertices| == |e.vertices| + Count(Get(e, g).prev) && r.vertices[..|e.vertices|] == e.vertices
    ensures r.vertices == e.vertices + (if Get(e, g).prev.Some? then [|e.arena|] else [])
    ensures r.overlay == e.overlay + ShownIf(Get(e, g).prev, e.nextMarker)
    ensures r.nextMarker == e.nextMarker + Count(Get(e, g).prev)
    ensures forall x: VId | x < |e.arena| :: SameButMiddles(Get(r, x), Get(e, x))
    ensures forall x: VId | x < |e.arena| && x != g && Some(x) != Get(e, g).prev :: Get(r, x) == Get(e, x)
    ensures Get(r, g).middleRight == Get(e, g).middleRight
    ensures Get(e, g).prev.Some? ==>
      && Get(r, Get(e, g).prev.value).middleRight == Some(|e.arena|)
      && Get(r, g).middleLeft == Some(|e.arena|)
      && Get(r, |e.arena|) == Vertex(Mid(Point(e, Get(e, g).prev.value), Point(e, g)), true, Get(e, g).prev, Some(g), None, None)
    ensures Linkable(r, g)
  {
    CreateMiddleMarker(e, Get(e, g).prev, Some(g))
  }

  /** `createMiddleMarker(vertex, next)`: a fresh ghost at the midpoint of
      the edge to the next vertex, when there is one. */
  function FlankRight(e: Editor, g: VId): (r: Editor)
    requires Linkable(e, g)
    ensures r == e.(arena := r.arena, markerOf := r.markerOf, vertices := r.vertices, markers := r.markers,
                    overlay := r.overlay, nextMarker := r.nextMarker)
    ensures |r.arena| == |e.arena| + Count(Get(e, g).next)
    ensures |r.vertices| == |e.vertices| + Count(Get(e, g).next) && r.vertices[..|e.vertices|] == e.vertices
    ensures r.vertices == e.vertices + (if Get(e, g).next.Some? then [|e.arena|] else [])
    ensures r.overlay == e.overlay + ShownIf(Get(e, g).next, e.nextMarker)
    ensures r.nextMarker == e.nextMarker + Count(Get(e, g).next)
    ensures forall x: VId | x < |e.arena| :: SameButMiddles(Get(r, x), Get(e, x))
    ensures forall x: VId | x < |e.arena| && x != g && Some(x) != Get(e, g).next :: Get(r, x) == Get(e, x)
    ensures Get(r, g).middleLeft == Get(e, g).middleLeft
    ensures Get(e, g).next.Some? ==>
      && Get(r, g).middleRight == Some(|e.arena|)
      && Get(r, Get(e, g).next.value).middleLeft == Some(|e.arena|)
      && Get(r, |e.arena|) == Vertex(Mid(Point(e, g), Point(e, Get(e, g).next.value)), true, Some(g), Get(e, g).next, None, None)
  {
    CreateMiddleMarker(e, Some(g), Get(e, g).next)
  }

  /** `createMiddleMarker(prev, vertex)` and `createMiddleMarker(vertex, next)`:
      one fresh ghost for each present neighbour (placed by `FlankLeft` and
      `FlankRight`); only ghost links of existing objects change. */
  function Flank(e: Editor, g: VId): (r: Editor)
    requires Linkable(e, g)
    ensures r == e.(arena := r.arena, markerOf := r.markerOf, vertices := r.vertices, markers := r.markers,
                    overlay := r.overlay, nextMarker := r.nextMarker)
    ensures |r.arena| == |e.arena| + Count(Get(e, g).prev) + Count(Get(e, g).next)
    ensures |r.vertices| == |e.vertices| + Count(Get(e, g).prev) + Count(Get(e, g).next)
    ensures r.vertices[..|e.vertices|] == e.vertices
    ensures r.vertices == e.vertices + (if Get(e, g).prev.Some? then [|e.arena|] else [])
                                     + (if Get(e, g).next.Some? then [RightGhostId(e, g)] else [])
    ensures r.overlay == e.overlay + ShownIf(Get(e, g).prev, e.nextMarker)
                                   + ShownIf(Get(e, g).next, RightMarker(e, g))
    ensures r.nextMarker == e.nextMarker + Count(Get(e, g).prev) + Count(Get(e, g).next)
    ensures forall x: VId | x < |e.arena| :: SameButMiddles(Get(r, x), Get(e, x))
    ensures forall x: VId | x < |e.arena| && x != g && Some(x) != Get(e, g).prev && Some(x) != Get(e, g).next ::
      Get(r, x) == Get(e, x)
  {
    var v := Get(e, g);
    var e1 := FlankLeft(e, g);
    assert Get(e1, g).prev == v.prev && Get(e1, g).next == v.next && Point(e1, g) == v.point;
    assert v.next.Some? ==> Point(e1, v.next.value) == Point(e, v.next.value);
    assert |e1.arena| == RightGhostId(e, g) && e1.nextMarker == RightMarker(e, g);
    var r := FlankRight(e1, g);
    assert r.vertices == e1.vertices + (if v.next.Some? then [RightGhostId(e, g)] else []);
    assert r.overlay == e1.overlay + ShownIf(v.next, RightMarker(e, g));
    assert r.vertices[..|e.vertices|] == e.vertices by {
      assert r.vertices[..|e.vertices|] == r.vertices[..|e1.vertices|][..|e.vertices|];
    }
    r
  }

  /** Flanking keeps the invariant and the count of real vertices. */
  lemma FlankValid(e: Editor, g: VId)
    requires Valid(e) && Linkable(e, g)
    ensures Valid(Flank(e, g)) && RealCount(Flank(e, g)) == RealCount(e)
  {
    CreateMiddleMarkerValid(e, Get(e, g).prev, Some(g));
    CreateMiddleMarkerValid(FlankLeft(e, g), Some(g), Get(FlankLeft(e, g), g).next);
  }

  /** What promotion needs of the ghost for the source not to throw:
      `vertex.getNext()` is present, and its point occurs in the owner's
      list (otherwise `indexOf` yields -1 and `add(-1, …)` throws). The
      links name vertices other than the ghost; `MiddlePromotable` shows
      that every ghost `createMiddleMarker` makes meets this as soon as the
      point of its right end is listed. */
  predicate CanPromote(e: Editor, g: VId) {
    && NoSelfLinks(Get(e, g), g)
    && Get(e, g).next.Some?
    && Point(e, Get(e, g).next.value) in e.positions
  }

  /** A ghost made by `createMiddleMarker(left, right)` can be promoted
      exactly when the point of `right` is in the owner's list. */
  lemma MiddlePromotable(e: Editor, left: VId, right: VId)
    requires left < |e.arena| && right < |e.arena|
    ensures CanPromote(Middle(e, left, right), |e.arena|) <==> Point(e, right) in e.positions
  {
  }

  /** The promotion branch of `select`: the ghost's point is inserted into
      the owner's list directly in front of its `next` neighbour's point,
      the ghost becomes real and is linked in between its neighbours, and
      one ghost is created on each side that has a neighbour. `reset()` is
      a hook with no modelled effect. */
  function Promote(e: Editor, g: VId): (r: Editor)
    requires g < |e.arena| && LinksIn(|e.arena|, e.arena[g]) && CanPromote(e, g)
    ensures r.selected == e.selected && r.lastAdded == e.lastAdded && r.drag == e.drag
    ensures r.positions == Insert(e.positions, IndexOf(e.positions, Point(e, Get(e, g).next.value)), Point(e, g))
    ensures |r.vertices| == |e.vertices| + 1 + Count(Get(e, g).prev)
    ensures r.vertices[..|e.vertices|] == e.vertices
    ensures r.vertices == e.vertices + (if Get(e, g).prev.Some? then [|e.arena|] else []) + [RightGhostId(e, g)]
    ensures !Get(r, g).isGhost && Get(r, g).point == Get(e, g).point
    ensures Get(r, g).prev == Get(e, g).prev && Get(r, g).next == Get(e, g).next
    ensures forall x: VId | x < |e.arena| && x != g && Some(x) != Get(e, g).prev && Some(x) != Get(e, g).next ::
      Get(r, x) == Get(e, x)
  {
    RaisedLists(e, g);
    Flank(Raise(e, g), g)
  }

  /** The vertex list after promotion: the left ghost's id, when there is
      a previous vertex, then the right ghost's id. */
  lemma RaisedLists(e: Editor, g: VId)
    requires g < |e.arena| && LinksIn(|e.arena|, e.arena[g]) && CanPromote(e, g)
    ensures Flank(Raise(e, g), g).vertices ==
      e.vertices + (if Get(e, g).prev.Some? then [|e.arena|] else []) + [RightGhostId(e, g)]
  {
    var c := Raise(e, g);
    assert c.vertices == e.vertices && |c.arena| == |e.arena|;
    assert Get(c, g).prev == Get(e, g).prev && Get(c, g).next == Get(e, g).next;
    assert RightGhostId(c, g) == RightGhostId(e, g);
  }

  /** Promotion shows the markers of the ghosts it creates: the left
      ghost's, when there is a previous vertex, and the right ghost's;
      every marker shown before stays shown. */
  lemma PromoteOverlay(e: Editor, g: VId)
    requires g < |e.arena| && LinksIn(|e.arena|, e.arena[g]) && CanPromote(e, g)
    ensures Promote(e, g).overlay == e.overlay + ShownIf(Get(e, g).prev, e.nextMarker) + {RightMarker(e, g)}
    ensures Promote(e, g).nextMarker == RightMarker(e, g) + 1
  {
    var c := Raise(e, g);
    assert c.overlay == e.overlay && c.nextMarker == e.nextMarker;
    assert Get(c, g).prev == Get(e, g).prev && Get(c, g).next == Get(e, g).next;
    assert RightMarker(c, g) == RightMarker(e, g);
  }

  /** The first half of promotion: the ghost's point enters the owner's
      list in front of its successor's point, and the ghost becomes a real
      vertex linked between its neighbours. */
  function Raise(e: Editor, g: VId): (r: Editor)
    requires g < |e.arena| && LinksIn(|e.arena|, e.arena[g]) && CanPromote(e, g)
    ensures r == e.(arena := r.arena, positions := r.positions) && |r.arena| == |e.arena|
    ensures r.positions == Insert(e.positions, IndexOf(e.positions, Point(e, Get(e, g).next.value)), Point(e, g))
    ensures Linkable(r, g) && Get(r, g) == Get(e, g).(isGhost := false)
    ensures forall x: VId | x < |e.arena| :: Get(r, x).point == Get(e, x).point
    ensures Get(r, Get(e, g).next.value).prev == Some(g)
    ensures Get(e, g).prev.Some? ==> Get(r, Get(e, g).prev.value).next == Some(g)
    ensures forall x: VId | x != g && Some(x) != Get(e, g).prev && Some(x) != Get(e, g).next :: Get(r, x) == Get(e, x)
  {
    var v := Get(e, g);
    var k := IndexOf(e.positions, Point(e, v.next.value));
    Relink(e.(positions := Insert(e.positions, k, v.point)), g)
  }

  /** Promotion inserts the ghost's point into the owner's list directly in
      front of the first occurrence of its successor's point, and changes
      nothing else in that list. */
  lemma PromotePositions(e: Editor, g: VId)
    requires g < |e.arena| && LinksIn(|e.arena|, e.arena[g]) && CanPromote(e, g)
    ensures 0 <= IndexOf(e.positions, Point(e, Get(e, g).next.value))
    ensures Promote(e, g).positions == Insert(e.positions, IndexOf(e.positions, Point(e, Get(e, g).next.value)), Point(e, g))
    ensures Promote(e, g).positions[IndexOf(e.positions, Point(e, Get(e, g).next.value)) + 1] == Point(e, Get(e, g).next.value)
    ensures multiset(Promote(e, g).positions) == multiset(e.positions) + multiset{Point(e, g)}
  {
    var k := IndexOf(e.positions, Point(e, Get(e, g).next.value));
    var ps := Promote(e, g).positions;
    assert ps == Insert(e.positions, k, Point(e, g));
    assert ps[k + 1] == e.positions[k];
  }

  /** The id promotion gives the ghost of the edge to the next vertex:
      the left ghost, when there is one, takes the first fresh id. */
  function RightGhostId(e: Editor, g: VId): nat {
    |e.arena| + Count(Get(e, g).prev)
  }

  /** The marker of that ghost, numbered after the left ghost's. */
  function RightMarker(e: Editor, g: VId): MId {
    e.nextMarker + Count(Get(e, g).prev)
  }

  /** The edge from the previous vertex after promotion: it links to the
      promoted vertex, and a fresh ghost at the edge's midpoint sits
      between them. */
  lemma PromoteLinksLeft(e: Editor, g: VId)
    requires g < |e.arena| && LinksIn(|e.arena|, e.arena[g]) && CanPromote(e, g)
    ensures Get(e, g).prev.Some? ==>
      && Get(Promote(e, g), Get(e, g).prev.value).next == Some(g)
      && Get(Promote(e, g), Get(e, g).prev.value).middleRight == Some(|e.arena|)
      && Get(Promote(e, g), g).middleLeft == Some(|e.arena|)
      && Get(Promote(e, g), |e.arena|) ==
           Vertex(Mid(Point(e, Get(e, g).prev.value), Point(e, g)), true, Get(e, g).prev, Some(g), None, None)
  {
  }

  /** The edge to the next vertex after promotion: it links back to the
      promoted vertex, and a fresh ghost at the edge's midpoint, recording
      both ends, sits between them. */
  lemma PromoteLinksRight(e: Editor, g: VId)
    requires g < |e.arena| && LinksIn(|e.arena|, e.arena[g]) && CanPromote(e, g)
    ensures Get(Promote(e, g), Get(e, g).next.value).prev == Some(g)
    ensures Get(Promote(e, g), Get(e, g).next.value).middleLeft == Some(RightGhostId(e, g))
    ensures Get(Promote(e, g), g).middleRight == Some(RightGhostId(e, g))
    ensures Get(Promote(e, g), RightGhostId(e, g)) ==
      Vertex(Mid(Point(e, g), Point(e, Get(e, g).next.value)), true, Some(g), Get(e, g).next, None, None)
  {
    PromoteSteps(e, g);
    RaisedRight(e, g);
  }

  /** Promotion is its first half, then the left ghost, then the right
      ghost. */
  lemma PromoteSteps(e: Editor, g: VId)
    requires g < |e.arena| && LinksIn(|e.arena|, e.arena[g]) && CanPromote(e, g)
    ensures Promote(e, g) == FlankRight(FlankLeft(Raise(e, g), g), g)
  {
  }

  /** The right ghost added after the first half of promotion and the
      left ghost, in terms of the state before promotion. */
  lemma RaisedRight(e: Editor, g: VId)
    requires g < |e.arena| && LinksIn(|e.arena|, e.arena[g]) && CanPromote(e, g)
    ensures var r := FlankRight(FlankLeft(Raise(e, g), g), g);
      && Get(r, Get(e, g).next.value).prev == Some(g)
      && Get(r, Get(e, g).next.value).middleLeft == Some(RightGhostId(e, g))
      && Get(r, g).middleRight == Some(RightGhostId(e, g))
      && Get(r, RightGhostId(e, g)) ==
           Vertex(Mid(Point(e, g), Point(e, Get(e, g).next.value)), true, Some(g), Get(e, g).next, None, None)
  {
    RaisedLeft(e, g);
    FlankRightEdge(FlankLeft(Raise(e, g), g), g, Get(e, g).next.value);
  }

  /** After the first half of promotion and the left ghost, the promoted
      vertex still has its point and its successor, which links back to
      it, and the arena has grown by the left ghost. */
  lemma RaisedLeft(e: Editor, g: VId)
    requires g < |e.arena| && LinksIn(|e.arena|, e.arena[g]) && CanPromote(e, g)
    ensures var c := FlankLeft(Raise(e, g), g);
      && Linkable(c, g) && |c.arena| == RightGhostId(e, g)
      && Get(c, g).next == Get(e, g).next && Point(c, g) == Point(e, g)
      && Point(c, Get(e, g).next.value) == Point(e, Get(e, g).next.value)
      && Get(c, Get(e, g).next.value).prev == Some(g)
  {
  }

  /** `createMiddleMarker(vertex, next)` with `n` the successor of `g`:
      `n` keeps its back link, and the fresh ghost sits between the two. */
  lemma FlankRightEdge(c: Editor, g: VId, n: VId)
    requires Linkable(c, g) && Get(c, g).next == Some(n) && Get(c, n).prev == Some(g)
    ensures Get(FlankRight(c, g), n).prev == Some(g)
    ensures Get(FlankRight(c, g), g).middleRight == Some(|c.arena|)
    ensures Get(FlankRight(c, g), n).middleLeft == Some(|c.arena|)
    ensures Get(FlankRight(c, g), |c.arena|) ==
      Vertex(Mid(Point(c, g), Point(c, n)), true, Some(g), Some(n), None, None)
  {
  }

  /** Promotion keeps the invariant and counts one more real vertex. */
  lemma PromoteValid(e: Editor, g: VId)
    requires Valid(e) && g in e.vertices && e.arena[g].isGhost && CanPromote(e, g)
    ensures Valid(Promote(e, g)) && RealCount(Promote(e, g)) == RealCount(e) + 1
  {
    LinksOf(e.arena, g);
    var v := Get(e, g);
    var k := IndexOf(e.positions, Point(e, v.next.value));
    var e1 := e.(positions := Insert(e.positions, k, v.point));
    RelinkValid(e1, g);
    var e2 := Relink(e1, g);
    LinksOf(e2.arena, g);
    FlankValid(e2, g);
  }

  /** Whether selecting vertex `index` promotes it: it is a ghost and the
      owner admits its point (`builder.add(vertex.getPoint())`). */
  predicate Promotes(e: Editor, index: nat, accepts: Pos -> bool)
    requires index < |e.vertices|
  {
    var v := Get(e, e.vertices[index]);
    v.isGhost && accepts(v.point)
  }

  /** `select(index)`: deselects, marks `index` selected, and promotes the
      vertex when it is a ghost the owner admits. Selection and promotion
      are independent: a rejected ghost stays a ghost but is selected. */
  function Select(e: Editor, index: nat, accepts: Pos -> bool): (r: Editor)
    requires Valid(e) && index < |e.vertices|
    requires Promotes(e, index, accepts) ==> CanPromote(e, e.vertices[index])
    ensures r.selected == index
    ensures !Promotes(e, index, accepts) ==> r == e.(selected := index)
    ensures Promotes(e, index, accepts) ==>
      && |r.positions| == |e.positions| + 1
      && multiset(r.positions) == multiset(e.positions) + multiset{Point(e, e.vertices[index])}
      && !Get(r, e.vertices[index]).isGhost
      && |r.vertices| > |e.vertices| && r.vertices[..|e.vertices|] == e.vertices
    ensures Promotes(e, index, accepts) ==> r == Promote(e.(selected := index), e.vertices[index])
  {
    var e1 := Deselect(e).(selected := index);
    var g := e1.vertices[index];
    if Promotes(e1, index, accepts) then
      LinksOf(e1.arena, g);
      Promote(e1, g)
    else e1
  }

  /** Selecting keeps the invariant; the count of real vertices grows by
      one exactly when the selection promotes a ghost. */
  lemma SelectValid(e: Editor, index: nat, accepts: Pos -> bool)
    requires Valid(e) && index < |e.vertices|
    requires Promotes(e, index, accepts) ==> CanPromote(e, e.vertices[index])
    ensures Valid(Select(e, index, accepts))
    ensures RealCount(Select(e, index, accepts)) == RealCount(e) + (if Promotes(e, index, accepts) then 1 else 0)
  {
    var e1 := Deselect(e).(selected := index);
    if Promotes(e1, index, accepts) {
      PromoteValid(e1, e1.vertices[index]);
    }
  }
}
